=== FILE: README.md ===
# STUDYPATH bookkeeping, modelled in Dafny

STUDYPATH ("Agents For You") is a small tutoring web app. A FastAPI server
(`src/web_app.py`) answers chat, feedback and quiz requests by asking a
language model. It keeps everything it knows in JSON files under `data/`:

- `users.json`: accounts by e-mail, each with a salted SHA-256 password hash;
- `sessions.json`: login tokens;
- `chats_index.json`: the saved-chat list, as an insertion-ordered object;
- one `session_<id>.json` transcript per chat.

A planner agent can also read offline teaching tips from `data/topics.json`
through the `get_local_tip` tool in `src/tools.py`.

This project models that bookkeeping. The model does not include the language model itself.

- `Store` holds the files as one immutable `State` record. Each helper of `web_app.py` is a pure function on that record: `meta_file`, `append_history`, `get_history`, `ensure_chat_index`, `create_user`, `verify_user`, `create_session` and `delete_session`.
- `Handlers` models these JSON routes, each as a function from the state and the request fields to the new state and the response. The covered routes are `whoami`, `register`, `login`, `logout`, `chat`, `feedback`, `search_chat`, `start_quiz`, `log_quiz_result`, `list_chats`, `get_chat`, `rename_chat`, `delete_chat` and the PDF export. Whatever the app draws from outside is a parameter:
  - the model's replies, or the message of the exception a call raised;
  - `uuid4` ids and tokens;
  - the salt and the `sha256` hex digest;
  - the clock;
  - `json.loads` of the quiz text.
- `Quiz` models the question-count rule, the code-fence stripping of the quiz reply, and the browser's `gradeQuiz` score.
- `Wrap` models `_wrap_text`, the greedy word wrapper of the PDF export, as a loop method.
- `Tips` models `get_local_tip`.
- Supporting modules:
  - `Text` models the Python `str` operations used: `strip`, `lower`, `split`, `join`, `in`, `capitalize` and `replace`;
  - `Dicts` models an insertion-ordered dict;
  - `Sorting` models a stable sort and the code-point order of strings;
  - `Optional` holds an option type.

The optional request fields (`name`, `email`, `password`, `session_id`,
`rating`, `title` and `count`) and the `session_token` cookie are `None` when
absent or JSON `null`. The string fields `message`, `answer`, `topic` and
`result_markdown` default to "" when absent. A stored field that is
missing from a file is `None`, so the readers' `.get` defaults ("?", "",
"Chat", 0) are modelled.

What the handlers store, in the code's own terms:

- A stored turn holds only a role and a content (`append_history`, `src/web_app.py:126`).
- A new chat's title is `first_message.strip()[:60] or "New chat"` (`src/web_app.py:141`).
- A quiz attempt writes a "user" turn and then a "tutor" turn (`src/web_app.py:1904-1907`).
- Feedback rated "ok" writes one "feedback" turn. Feedback rated "easy" or "hard" writes a "feedback" turn and then a "tutor" turn with the follow-up (`src/web_app.py:1708-1709`).

## Model

| member | source | states |
|---|---|---|
| Store.MetaFile | src/web_app.py:117-119 | The transcript file name of a session never contains "/" and is never one of the three shared JSON files. |
| Store.MetaFileShared | src/web_app.py:117-119 | Two session ids share a transcript file exactly when they agree once "/" is replaced by "_". |
| Store.MetaFileCollision | src/web_app.py:117-119 | The distinct ids "a/b" and "a_b" name the same transcript file. |
| Store.MetaFileInjective | src/web_app.py:117-119 | Distinct ids without "/" have transcripts of their own. |
| Store.AppendHistory | src/web_app.py:122-133 | After an append, `get_history` of the session, and of any id sharing its file, is the old history plus the new turn. Every other transcript, the accounts, the tokens and the index are unchanged. |
| Store.ChatTitle | src/web_app.py:136-144 | A chat title is "New chat" when the stripped message is empty. Otherwise it is a prefix of the stripped message, of length min(60, its length). |
| Store.EnsureChatIndex | src/web_app.py:136-144 | An indexed session is left alone. A new one is added at the end of the index order, with its title and the current time. Nothing else changes, and the index stays well formed. |
| Store.RegisterThenVerify | src/web_app.py:72-97 | `create_user` on a new e-mail succeeds, and `verify_user` then accepts the password the account was created with, answering with its name. |
| Store.WrongPasswordRefused | src/web_app.py:88-97 | With a collision-free hash, any other password is refused as "Incorrect password". |
| Store.SessionLifecycle | src/web_app.py:100-114 | After `create_session`, `whoami` on the new token names its e-mail. After `delete_session` of that token, the caller is anonymous. |
| Handlers.Append2 | src/web_app.py:1630-1631 | Two appends in a row add both turns in order and touch no other transcript, account or index entry. |
| Handlers.Chat | src/web_app.py:1573-1634 | The question and the reply are appended as a "user" and a "tutor" turn. The reply is the agent's text, or the rate-limit or server-error apology when the agent failed. The session id is the given one or a fresh one. An empty transcript first gets an index entry titled by the message, or "New chat" for an empty message. Accounts and other transcripts are kept. |
| Handlers.IsComparison | src/web_app.py:1578-1583 | A question is a comparison exactly when one of the keywords occurs somewhere in the lower-cased question. |
| Handlers.ComparisonIgnoresCase | src/web_app.py:1578-1583 | Whether a question is a comparison does not depend on letter case. |
| Handlers.ComparisonExamples | src/web_app.py:1578-1583 | "A VS B" is a comparison, and "x vs" is not: " vs " counts only with its spaces. |
| Handlers.ChatPromptShape | src/web_app.py:1585-1606 | A comparison's prompt opens with the table instructions, any other prompt opens with the markdown instructions, and every prompt ends with the question exactly as asked. |
| Handlers.ChatIndexesOnce | src/web_app.py:1626-1628 | A second question in the same named session never touches the chat index. |
| Handlers.LastUser | src/web_app.py:1647-1651 | A quoted question is always the content of some "user" turn of the transcript. |
| Handlers.LastUserIsLatest | src/web_app.py:1647-1651 | The quoted question is the content of a user turn with no user turn after it, and is None when there is no user turn. |
| Handlers.Feedback | src/web_app.py:1637-1710 | An unknown rating is a 400 "Bad payload" that changes nothing. "ok" appends one "feedback" turn and returns "". "easy" and "hard" ask the agent to rewrite the stripped answer, quoting the latest question. They append "rating:" plus the rating and then the rewrite, or a thank-you line with the answer when the agent fails. An empty transcript is first indexed as "Feedback only". |
| Handlers.MarkedOk | src/web_app.py:1653-1658 | The "ok" rating appends exactly one "feedback" turn and returns an empty follow-up. |
| Handlers.Rewrite | src/web_app.py:1660-1710 | The "easy" and "hard" ratings append the rating and the follow-up. The follow-up is the agent's reply or the fallback for that rating. |
| Handlers.FeedbackQuotesQuestion | src/web_app.py:1647-1651 | Right after a chat question, the feedback prompt quotes that question. |
| Handlers.Matches | src/web_app.py:1713-1722 | A search returns no more results than the transcript has turns. |
| Handlers.MatchesConcat | src/web_app.py:1713-1722 | Searching a concatenation of histories searches each part, in order. |
| Handlers.MatchesMembers | src/web_app.py:1713-1722 | A result is the role and content view of a turn whose lower-cased content contains the lower-cased query, and every such turn gives a result. |
| Handlers.MatchesIgnoreCase | src/web_app.py:1716-1720 | The letter case of the query does not matter. |
| Handlers.EmptyQueryFindsAll | src/web_app.py:1716-1720 | The empty query matches every turn. |
| Handlers.SearchChat | src/web_app.py:1713-1722 | The session's search results are exactly the views of its matching turns. |
| Handlers.StartQuiz | src/web_app.py:1840-1909 | A blank topic is a 400 "Missing topic" that changes nothing. Otherwise the count is normalised, and the attempt on the stripped topic is recorded as the shared quiz-effect predicate (`QuizAnswered`) states. |
| Handlers.QuizRecorded | src/web_app.py:1882-1909 | After a quiz attempt the transcript gains the request as a "user" turn and one "tutor" turn. On success the questions are returned with a count note. On failure no questions are returned, and the note and the `raw` text tell a rate limit from any other error. The index, the accounts and other transcripts are kept. |
| Handlers.FencedQuizAccepted | src/web_app.py:1873-1882 | A completion whose reply is a JSON list wrapped in a "```json" fence yields exactly that list as the questions. |
| Handlers.LogQuizResult | src/web_app.py:1912-1924 | A blank result is a 400 that changes nothing. Otherwise the stripped result is appended as a "tutor" turn, and an empty transcript is first indexed as "[Quiz result]". |
| Handlers.NewerOrSameTotalPreorder | src/web_app.py:1938 | Ordering by decreasing `created_at` is a total preorder, so sorting by it is well defined. |
| Handlers.ListChats | src/web_app.py:1927-1939 | The list is a permutation of the index rows, newest first, with chats created at the same time kept in index order. |
| Handlers.ListChatsRows | src/web_app.py:1927-1939 | Every saved chat appears, with its own title and time or the "Chat" and 0 defaults, and every listed row belongs to a saved chat. |
| Handlers.RenameChat | src/web_app.py:1948-1959 | A missing id or title is a 400, and an unknown id is a 404; neither changes anything. Otherwise only that chat's title changes, to the stripped title or "Chat". |
| Handlers.RenameChatRows | src/web_app.py:1948-1959 | A rename keeps the chat list's rows, order and times; only the renamed chat's title differs. |
| Handlers.DeleteChat | src/web_app.py:1962-1974 | A missing id is a 400 that changes nothing. Otherwise the index entry and the transcript file are removed, the remaining chats keep their index order, and the reply is "deleted" either way. |
| Handlers.DeleteChatForgets | src/web_app.py:1962-1974 | After a delete, the chat and every id sharing its file have an empty history; other transcripts are kept; deleting again changes nothing. |
| Handlers.Register | src/web_app.py:1542-1550 | Registration succeeds exactly when name, e-mail and password are all non-empty and the e-mail is new. After a success, `verify_user` accepts the password and answers with the name. A refusal changes nothing, and registering never touches tokens, index or transcripts. |
| Handlers.Login | src/web_app.py:1553-1562 | A login is accepted only for a known e-mail whose password `verify_user` accepts. The new token then identifies that account for `whoami`. A refused login changes nothing. |
| Handlers.Logout | src/web_app.py:1565-1570 | After a logout, `whoami` with the same token is anonymous, and every other token identifies whom it did before. The reply is "logged out". |
| Handlers.RegisterLoginWhoAmI | src/web_app.py:1524-1562 | Registering, then logging in with the same password, makes the new token identify the new account in the token table. |
| Handlers.LoginCookieLost | src/web_app.py:1554-1562 | `api_login` sets the new token on the injected response. As written, that cookie never arrives, so a browser without a cookie stays anonymous after registering and logging in, although the stored token would identify the account. |
| Handlers.LoginCookieKept | src/web_app.py:1524-1562 | With the cookie set on the returned response, a browser is logged in as the new account after registering and logging in, whatever cookie it held before. |
| Handlers.LogoutForgets | src/web_app.py:1565-1570 | After a logout the browser is anonymous, whether or not its cookie is cleared, because its token is no longer known. |
| Handlers.ExportChat | src/web_app.py:1740-1771 | An empty history is a 404 "No chat history". Otherwise the drawn lines are each turn's "role: content" line wrapped at 90 on its own, turn after turn. They hold exactly the words of the transcript lines, in order, and each is single-spaced and, when it has two or more words, at most 90 characters long. |
| Handlers.ExportStep | src/web_app.py:1756-1758 | Drawing one more turn's wrapped lines keeps the export's invariant. |
| Handlers.DrawnSnoc | src/web_app.py:1756-1758 | Drawing one more turn adds exactly that turn's wrapped lines after the lines drawn so far. |
| Handlers.TranscriptSnoc | src/web_app.py:1756-1758 | One more turn adds exactly the words of its "role: content" line after the words so far. |
| Handlers.FlatWordsConcat | src/web_app.py:1756-1758 | The words of two blocks of lines are the words of each block, in order. |
| Wrap.WrapText | src/web_app.py:1725-1737 | The lines are the greedy pass over the words followed by the unfinished line when it is non-empty. They hold exactly `text.split()` in order. Each line is single-spaced, and a line of two or more words fits in the width. A line is closed only when the next word would not fit after it. Only the first line can be empty, and it is empty exactly when the first word plus one space exceeds the width. Whitespace-only text gives no lines. |
| Wrap.WrappedOk | src/web_app.py:1725-1737 | The greedy pass's output has every property the wrapper promises, so a wrapped turn in the export has them too. |
| Quiz.NormaliseCount | src/web_app.py:1842-1850 | The question count is 5 or 10, and it is 10 exactly when 10 was asked for. |
| Quiz.Untag | src/web_app.py:1877-1878 | A body that does not start with "json", in any letter case, is kept as it is. One that does loses at least those four characters and comes back stripped. |
| Quiz.UntagJson | src/web_app.py:1877-1878 | A body of "json", a newline, a bare JSON text and a newline untags to exactly that text. |
| Quiz.UntagPlain | src/web_app.py:1877-1878 | A body made of a newline, any text and a newline is kept as it is, newlines included. |
| Quiz.UnfenceFenced | src/web_app.py:1874-1878 | A reply fenced with three backticks on each side unfences to its body with the "json" tag handling applied. |
| Quiz.UnfenceTagged | src/web_app.py:1874-1878 | A "```json" fenced body without whitespace or backticks at its ends unfences to exactly that body. |
| Quiz.UnfenceUntagged | src/web_app.py:1874-1878 | An untagged fence keeps the newlines around its body. |
| Quiz.ScoreAsWritten | src/web_app.py:1165-1175 | The browser's score never exceeds the number of questions. |
| Quiz.NullAnswerCountsUnanswered | src/web_app.py:1170-1175 | One unanswered question whose `answer_index` is null scores 1 of 1 as written and 0 under the corrected rule. |
| Quiz.AsWrittenOvercounts | src/web_app.py:1170-1175 | The browser's score is the corrected score plus the number of unanswered questions whose `answer_index` is null. |
| Quiz.Score | src/web_app.py:1165-1175 | The corrected score never exceeds the number of answered questions. |
| Quiz.FullMarks | src/web_app.py:1165-1175 | The corrected rule gives full marks exactly when every question was answered with its `answer_index`. |
| Tips.GetLocalTip | src/tools.py:23-42 | A missing file gives the "no database" message, and an unreadable one gives the error prefix followed by the error text. For a table, the answer opens with the tip header exactly when the stripped, lower-cased topic is a key. |
| Tips.TopicKey | src/tools.py:32 | The lookup key is no longer than the topic, has no whitespace at either end, and holds no upper-case ASCII letter. |
| Tips.TopicKeyNormalises | src/tools.py:32 | The lookup key ignores surrounding whitespace and letter case, and normalising twice changes nothing. |
| Tips.SameKeySameAnswer | src/tools.py:32-42 | Topics with the same key get the same answer, apart from the topic echoed in the header. |
| Tips.UnknownTopicListsSortedKeys | src/tools.py:33-38 | On a miss, the message lists every key exactly once, in strictly ascending code-point order, joined by ", ". |
| Tips.TipLinesInOrder | src/tools.py:40-42 | On a hit where neither the topic nor any tip holds a newline, the answer's lines are the header followed by one "- t" line per tip, in stored order. A topic stored with no tips gives the header and one empty line. |
| Sorting.SortSorted | src/web_app.py:1938 | The stable sort returns a permutation of its input, ordered by the given total preorder. |
| Sorting.SortStable | src/web_app.py:1938 | Elements tied under the order keep their relative order. |
| Sorting.StrLeTotalPreorder | src/tools.py:34 | Python's code-point string order is a total preorder. |
| Sorting.StrLeAntisymmetric | src/tools.py:34 | Two strings that are each at most the other are equal. |
| Dicts.Put | src/web_app.py:139-144 | Assigning a key keeps the place of an existing key and appends a new one at the end, and the dict stays well formed. |
| Dicts.Remove | src/web_app.py:1967-1969 | Popping a key removes it from both the mapping and the order. The other keys keep their values and their relative order. |
| Dicts.WithoutConcat | src/web_app.py:1967-1969 | Dropping a key from two joined key orders drops it from each part, keeping the parts in order. |
| Dicts.WithoutOne | src/web_app.py:1967-1969 | Dropping a key from a one-key order leaves nothing when it is that key, and the order unchanged otherwise. |
| Dicts.WithoutAbsent | src/web_app.py:1967-1969 | Dropping a key the order does not hold changes nothing. |
| Dicts.DistinctPermutation | src/tools.py:34 | A rearrangement of distinct keys is distinct. |
| Text.NatToStringRoundTrip | src/web_app.py:1904-1907 | The decimal text of a count reads back as the same number. |
| Text.NatToStringInjective | src/web_app.py:1904-1907 | Different counts give different decimal texts. |
| Text.SplitJoin | src/web_app.py:1726-1733 | Joining words with single spaces and splitting the result gives back the words. |
| Text.SplitOnJoin | src/tools.py:41-42 | Splitting a "\n"-joined list of one-line strings at "\n" gives back the list. |
| Text.StripIdempotent | src/web_app.py:1842 | Stripping twice is stripping once. |
| Text.LowerIdempotent | src/web_app.py:1578 | Lower-casing twice is lower-casing once. |
| Text.ContainsIffOccurs | src/web_app.py:1583 | Python's substring test holds exactly when the needle occurs at some position. |

## Left out

- The language-model calls are parameters: the tutor agent, the feedback rewrite and the quiz completion. So are their prompts' effect and `SQLiteSession` memory. `src/agents_setup.py`, `src/chat_cli.py` and `src/evaluate.py` are not part of this model.
- Randomness, the clock and hashing are parameters: `uuid4` ids and tokens, `time.time()` as an integer, the salt, and `sha256` as a hex-digest function.
- `json.loads` is a parameter. Only its outcome is modelled: a list, another value, or an error message.
- Reading `topics.json` is a parameter of `Tips.GetLocalTip` too: missing, unreadable with its error text, or a parsed table.
- File-system plumbing is not modelled: `load_json` on a corrupt file, `save_json`, and the process-wide state between requests. Concurrency between requests is not modelled either.
- `/api/chat_with_file` and its PDF text extraction are not modelled: they involve file uploads and a third-party PDF reader.
- The PDF layout is not modelled: fonts, page breaks, coordinates and the heading line. `Handlers.ExportChat` returns the lines it would draw.
- The HTML pages served at "/" and "/login" are not modelled, and neither is the rest of the browser script apart from `gradeQuiz`'s comparison.
- `Text.Lower` and `Text.Capitalize` change only ASCII letters. Python's full Unicode case mapping is not modelled.
- The handlers do not model a `message`, `answer`, `topic` or `result_markdown` that is JSON `null` or a number. Its `.strip()` or `.lower()` would raise, giving a 500.
- `Quiz.NormaliseCount` takes the count as an optional integer. The `ValueError` of `int()` on a non-numeric count is not modelled.
- Tips.GetLocalTip: a `topics.json` that parses to something other than an object of lists is not modelled, because the model's parsed table maps keys to lists of strings. In Python, a top-level list or `null` raises outside the `try`: a list raises `AttributeError` at `data.keys()` (`src/tools.py:34`) or `TypeError` at `data[key]`, and `null` raises `TypeError` at `key not in data`. A `null` or number tip value raises `TypeError` when it is iterated (`src/tools.py:41`). A string value is bulleted one character per line.
- Tips.TipLinesInOrder: states the line structure only for a topic and tips without newlines. A newline inside either splits its line further.
- The session cookie is modelled only as the `session_token` value a reply asks the browser to set or clear (`Handlers.CookieUpdate`). Its attributes (`httponly`, path, expiry) and the HTTP headers that carry it are not modelled. FastAPI's handling of a returned response is modelled by `Handlers.SentAsWritten`: a handler that returns its own `JSONResponse` sends it without the cookies set on the injected `Response`.
- `Store.WhoAmI` does not model a token entry without an "email" field, which reads as `None`.
- `Store.VerifyUser` treats every stored account as truthy. An account stored as the empty object `{}` would read as "User not found" in Python.
- `Handlers.Login` models a password that is absent for a known account only as the 500 it raises. It does not model the exception's text.
- `/api/get_chat` is `Store.GetHistory` unchanged, so it has no separate member. What `Store.GetHistory` returns is stated through `Store.AppendHistory` and `Handlers.DeleteChatForgets`.
- The handlers that touch the chat index require `Store.Valid`: that the stored index is a well-formed ordered object, as every JSON object read from disk is.
- Handlers.ChatIndexesOnce, Handlers.FeedbackQuotesQuestion, Handlers.DeleteChatForgets and Handlers.RenameChatRows assume a non-empty session id. With an empty id the source draws a fresh `uuid4` instead.
- Handlers.ChatPromptShape states only the implication from the classification to the opening instructions, not its converse.

## Findings

| source | as written | input that shows it | evidently intended | confidence | as-written member | corrected member |
|---|---|---|---|---|---|---|
| src/web_app.py:1554-1562 | `response.set_cookie("session_token", token, httponly=True)` on the injected `Response`, then `return JSONResponse({"detail": "ok"})` | a successful login: FastAPI sends the returned `JSONResponse` as it is, so no `session_token` cookie arrives, and the next `/api/whoami` answers `logged_in: false` | the reply that accepts the login sets the `session_token` cookie | not executed | Handlers.LoginCookieLost | Handlers.LoginCookieKept |
| src/web_app.py:1170-1175 | `chosen === correct`, with `chosen` set to `null` when no option is picked | a generated question whose `answer_index` is JSON `null`, left unanswered: it scores 1 / 1 | a question counts only when an option was picked and it is the one `answer_index` names | not executed | Quiz.NullAnswerCountsUnanswered | Quiz.FullMarks |

=== FILE: dicts.dfy ===
/** A Python dict as JSON loads and dumps it: a map from keys to values plus
    the order in which the keys were first inserted. Assigning to an existing
    key keeps its place; a new key goes last; `pop` removes the key from the
    order. */
module Dicts {

  datatype Dict<K, V> = Dict(keys: seq<K>, entries: map<K, V>)

  predicate Distinct<K(==)>(s: seq<K>) {
    forall i, j :: 0 <= i < j < |s| ==> s[i] != s[j]
  }

  /** The order lists every key of the map exactly once. */
  ghost predicate Valid<K(!new), V>(d: Dict<K, V>) {
    && Distinct(d.keys)
    && (forall k :: k in d.entries <==> k in d.keys)
  }

  /** `d[k] = v`. */
  function Put<K(==,!new), V>(d: Dict<K, V>, k: K, v: V): (r: Dict<K, V>)
    requires Valid(d)
    ensures Valid(r)
    ensures r.entries == d.entries[k := v]
    ensures k in d.entries ==> r.keys == d.keys
    ensures k !in d.entries ==> r.keys == d.keys + [k]
  {
    if k in d.entries then Dict(d.keys, d.entries[k := v])
    else Dict(d.keys + [k], d.entries[k := v])
  }

  /** The sequence `s` with every occurrence of `k` left out. */
  function Without<K(==,!new)>(s: seq<K>, k: K): (r: seq<K>)
    ensures forall x :: x in r <==> x in s && x != k
    ensures Distinct(s) ==> Distinct(r)
    decreases |s|
  {
    if s == [] then []
    else
      var rest := Without(s[1..], k);
      assert Distinct(s) ==> s[0] !in s[1..];
      assert forall x :: x in s <==> x == s[0] || x in s[1..];
      if s[0] == k then rest else [s[0]] + rest
  }

  /** Leaving a key out of a concatenation leaves it out of each part, so the
      keys that stay keep their relative order. */
  lemma {:induction false} WithoutConcat<K(!new)>(a: seq<K>, b: seq<K>, k: K)
    ensures Without(a + b, k) == Without(a, k) + Without(b, k)
    decreases |a|
  {
    if a == [] {
      assert a + b == b;
    } else {
      assert (a + b)[1..] == a[1..] + b;
      assert (a + b)[0] == a[0];
      WithoutConcat(a[1..], b, k);
    }
  }

  /** On one key: the removed key goes, any other stays. */
  lemma WithoutOne<K(!new)>(x: K, k: K)
    ensures Without([x], k) == if x == k then [] else [x]
  {
    assert [x][1..] == [];
  }

  /** A sequence without the key is left as it is. */
  lemma {:induction false} WithoutAbsent<K(!new)>(s: seq<K>, k: K)
    requires k !in s
    ensures Without(s, k) == s
    decreases |s|
  {
    if s != [] {
      assert k !in s[1..];
      WithoutAbsent(s[1..], k);
      assert s == [s[0]] + s[1..];
    }
  }

  /** `d.pop(k)` after the `k in d` test, or no change when `k` is absent. */
  function Remove<K(==,!new), V>(d: Dict<K, V>, k: K): (r: Dict<K, V>)
    requires Valid(d)
    ensures Valid(r)
    ensures r.entries == d.entries - {k}
    ensures forall x :: x in r.keys <==> x in d.keys && x != k
    ensures r.keys == Without(d.keys, k)
  {
    Dict(Without(d.keys, k), d.entries - {k})
  }

  /** `d.items()` in insertion order. */
  function Items<K(==,!new), V>(d: Dict<K, V>): (r: seq<(K, V)>)
    requires Valid(d)
    ensures |r| == |d.keys|
    ensures forall i :: 0 <= i < |r| ==> r[i].0 == d.keys[i] && r[i].1 == d.entries[d.keys[i]]
  {
    seq(|d.keys|, i requires 0 <= i < |d.keys| => (d.keys[i], d.entries[d.keys[i]]))
  }

  /** Distinctness is having every multiplicity at most one. */
  lemma {:induction false} DistinctCount<K>(s: seq<K>, k: K)
    requires Distinct(s)
    ensures multiset(s)[k] <= 1
    decreases |s|
  {
    if s != [] {
      assert s == [s[0]] + s[1..];
      DistinctCount(s[1..], k);
      if s[0] == k {
        assert k !in s[1..];
      }
    }
  }

  /** A rearrangement of distinct keys is distinct. */
  lemma DistinctPermutation<K>(a: seq<K>, b: seq<K>)
    requires Distinct(a) && multiset(a) == multiset(b)
    ensures Distinct(b)
  {
    forall i, j | 0 <= i < j < |b| ensures b[i] != b[j] {
      DistinctCount(a, b[i]);
      assert b == b[..j] + [b[j]] + b[j + 1..];
      assert b[..j] == b[..i] + [b[i]] + b[i + 1..j];
      assert multiset(b)[b[i]] >= multiset(b[..j])[b[i]] + multiset([b[j]])[b[i]];
    }
  }
}

=== FILE: handlers.dfy ===
/** The request handlers of src/web_app.py, each a pure function from the
    stored state and the request fields to the new state and the response.
    What the running app draws from its surroundings is passed in: the fresh
    session id `uuid4` would give, the clock, the salt and login token, and
    every reply of the language model (its text, or the text of the exception
    the call raised). A request field that is absent or JSON `null` is `None`. */
module Handlers {
  import opened Optional
  import opened Text
  import opened Store
  import Sorting
  import Dicts
  import Quiz
  import Wrap

  /** A JSON body, or an error status with its `detail`. */
  datatype Resp<T> = Ok(body: T) | Fail(status: nat, detail: string)

  /** The state after a request, and the response. */
  datatype Out<T> = Out(state: State, resp: Resp<T>)

  /** A call into the model: its final text, or the message of what it raised. */
  datatype Outcome = Replied(text: string) | Raised(message: string)

  /** The test both LLM handlers apply to a lower-cased exception message. */
  predicate IsRateLimit(message: string) {
    Contains(Lower(message), "rate_limit") || Contains(Lower(message), "rate limit")
  }

  /** Nothing but the transcripts and the chat index can change. */
  predicate SameAccounts(s: State, t: State) {
    t.users == s.users && t.logins == s.logins
  }

  /** Appending two turns to one session. */
  function Append2(s: State, sid: string, r1: string, c1: string, r2: string, c2: string): (r: State)
    ensures GetHistory(r, sid) == GetHistory(s, sid) + [Said(r1, c1), Said(r2, c2)]
    ensures OthersKept(s, r, sid)
    ensures SameAccounts(s, r) && r.index == s.index
  {
    var s1 := AppendHistory(s, sid, r1, c1);
    AppendHistory(s1, sid, r2, c2)
  }

  /** `ensure_chat_index` when the session has no transcript yet, else nothing. */
  function IndexIfNew(s: State, sid: string, first: string, now: int): (r: State)
    requires Valid(s)
    ensures Valid(r) && SameAccounts(s, r) && r.files == s.files
    ensures GetHistory(s, sid) != [] ==> r.index == s.index
    ensures GetHistory(s, sid) == [] ==> r.index == EnsureChatIndex(s, sid, first, now).index
  {
    if GetHistory(s, sid) == [] then EnsureChatIndex(s, sid, first, now) else s
  }

  // ---------------------------------------------------------------------------
  // /api/chat

  const ComparisonKeywords: seq<string> :=
    ["compare", "comparison", "difference between", "differences between",
     " vs ", "versus", "advantages and disadvantages"]

  /** A question asks for a comparison when its lower-cased text contains one
      of the keywords. */
  function IsComparison(message: string): (b: bool)
    ensures b <==> exists k, i :: k in ComparisonKeywords && OccursAt(Lower(message), k, i)
  {
    assert forall k :: Contains(Lower(message), k) <==> exists i :: OccursAt(Lower(message), k, i) by {
      forall k ensures Contains(Lower(message), k) <==> exists i :: OccursAt(Lower(message), k, i) {
        ContainsIffOccurs(Lower(message), k);
      }
    }
    exists k :: k in ComparisonKeywords && Contains(Lower(message), k)
  }

  /** The opening both sets of tutor instructions share. */
  const TutorIntro := "\nYou are STUDYPATH \U{2013} Agents For You, an AI tutor.\n\n"

  const ComparisonInstructions := TutorIntro +
    "The student is asking a COMPARISON question.\n\nRespond ONLY as a **markdown table**, no extra paragraphs before or after the table.\n"

  const MarkdownInstructions := TutorIntro +
    "Always answer in friendly **markdown** format:\n\n- Start with a short summary line with an emoji.\n- Use bullet points for lists.\n- Use numbered steps for procedures.\n- Use **bold** for key terms.\n- Use headings (##, ###) when helpful.\n"

  const ChatRateLimitReply :=
    "\U{26A0}\U{FE0F} I\U{2019}ve hit the current API rate limit for this OpenAI account.\n\nPlease wait a little and try again, or use an API key / account with higher limits. For demos, avoid sending too many questions very quickly."

  const ChatServerErrorReply :=
    "\U{26A0}\U{FE0F} I had a problem generating the answer on the server side.\n\nPlease check that the Agents SDK and your OpenAI API key are configured correctly."

  /** The text handed to the tutor agent. */
  function ChatPrompt(message: string): string {
    (if IsComparison(message) then ComparisonInstructions else MarkdownInstructions)
      + "\n\nStudent question:\n" + message
  }

  /** The tutor's turn: the agent's text, or the apology for its failure. */
  function ChatReplyText(outcome: Outcome): string {
    match outcome
    case Replied(text) => text
    case Raised(e) => if IsRateLimit(e) then ChatRateLimitReply else ChatServerErrorReply
  }

  datatype ChatReply = ChatReply(reply: string, sessionId: string)

  /** `api_chat`: the question and the reply are appended as a "user" and a
      "tutor" turn, whether the agent answered or failed; a session whose
      transcript was empty is first entered in the chat index under its
      question. */
  function Chat(s: State, message: string, sessionId: Option<string>, newId: string,
                agent: string -> Outcome, now: int): (r: Out<ChatReply>)
    requires Valid(s)
    ensures Valid(r.state) && SameAccounts(s, r.state)
    ensures var sid := OrElse(sessionId, newId);
      && r.resp == Ok(ChatReply(ChatReplyText(agent(ChatPrompt(message))), sid))
      && GetHistory(r.state, sid) == GetHistory(s, sid) + [Said("user", message), Said("tutor", r.resp.body.reply)]
      && OthersKept(s, r.state, sid)
      && (GetHistory(s, sid) != [] ==> r.state.index == s.index)
      && (GetHistory(s, sid) == [] ==>
            r.state.index == EnsureChatIndex(s, sid, if message == [] then "New chat" else message, now).index)
  {
    var sid := OrElse(sessionId, newId);
    var reply := ChatReplyText(agent(ChatPrompt(message)));
    var s1 := IndexIfNew(s, sid, OrElse(Some(message), "New chat"), now);
    Out(Append2(s1, sid, "user", message, "tutor", reply), Ok(ChatReply(reply, sid)))
  }

  /** The classifier ignores letter case. */
  lemma ComparisonIgnoresCase(message: string)
    ensures IsComparison(Lower(message)) == IsComparison(message)
  {
    LowerIdempotent(message);
  }

  /** " vs " is a keyword only with the spaces around it. */
  lemma ComparisonExamples()
    ensures IsComparison("A VS B")
    ensures !IsComparison("x vs")
  {
    assert Lower("A VS B") == "a vs b";
    assert Contains("a vs b", " vs ") by {
      assert "a vs b"[1..] == " vs b";
    }
    assert " vs " in ComparisonKeywords;
    assert Lower("x vs") == "x vs";
    forall k | k in ComparisonKeywords ensures !Contains("x vs", k) {
      if k == " vs " {
        NoSpacedVs();
      } else {
        ContainsLonger("x vs", k);
      }
    }
  }

  lemma NoSpacedVs()
    ensures !Contains("x vs", " vs ")
  {
    assert " vs "[0] != "x vs"[0];
    assert "x vs"[1..] == " vs";
    ContainsLonger(" vs", " vs ");
  }

  /** The prompt opens with the table instructions for a comparison and with
      the general markdown instructions otherwise, and always ends with the
      question as asked. */
  lemma ChatPromptShape(message: string)
    ensures IsComparison(message) ==> ComparisonInstructions <= ChatPrompt(message)
    ensures !IsComparison(message) ==> MarkdownInstructions <= ChatPrompt(message)
    ensures var p := ChatPrompt(message); p[|p| - |message|..] == message
  {
    var p := ChatPrompt(message);
    var head := if IsComparison(message) then ComparisonInstructions else MarkdownInstructions;
    var tag := "\n\nStudent question:\n";
    assert p == head + (tag + message) by { Assoc(head, tag, message); }
    PrefixConcat(head, tag + message);
    Assoc(head, tag, message);
    DropConcat(head + tag, message, |head + tag|);
  }

  /** A second question in a named session never touches the chat index. */
  lemma ChatIndexesOnce(s: State, m1: string, m2: string, sid: string,
                        f1: string, f2: string, agent: string -> Outcome, t1: int, t2: int)
    requires Valid(s) && sid != []
    ensures var s1 := Chat(s, m1, Some(sid), f1, agent, t1).state;
      Chat(s1, m2, Some(sid), f2, agent, t2).state.index == s1.index
  {
    var s1 := Chat(s, m1, Some(sid), f1, agent, t1).state;
    assert GetHistory(s1, sid) != [];
  }

  // ---------------------------------------------------------------------------
  // /api/feedback

  const HardInstructions :=
    "\nThe student said your last explanation was TOO HARD.\n\nRewrite the explanation in MUCH simpler words, using:\n- very basic, real-world analogies\n- short sentences\n- bullet points\n- step-by-step explanation\n\nOutput a friendly markdown explanation only.\n"

  const EasyInstructions :=
    "\nThe student said your last explanation was TOO EASY.\n\nProvide a deeper explanation with:\n- more advanced details\n- at least 1\U{2013}2 tricky conceptual questions\n- answers and short explanations\n\nOutput a friendly markdown explanation only.\n"

  const OkNote := "Student marked answer as OK."

  /** The content of the latest "user" turn, scanning from the end; `None`
      when there is none or its content is missing. */
  function LastUser(hist: seq<Turn>): (r: Option<string>)
    ensures r.Some? ==> exists i :: 0 <= i < |hist| && hist[i] == Turn(Some("user"), r)
    decreases |hist|
  {
    if hist == [] then None
    else if hist[|hist| - 1].role == Some("user") then hist[|hist| - 1].content
    else LastUser(hist[..|hist| - 1])
  }

  /** `LastUser` is the content of the user turn after which no user turn
      follows, and `None` when there is no user turn at all. */
  lemma {:induction false} LastUserIsLatest(hist: seq<Turn>)
    ensures (forall i :: 0 <= i < |hist| ==> hist[i].role != Some("user")) ==> LastUser(hist) == None
    ensures (exists i :: 0 <= i < |hist| && hist[i].role == Some("user")) ==>
      exists i :: 0 <= i < |hist| && hist[i].role == Some("user") && hist[i].content == LastUser(hist)
        && forall j :: i < j < |hist| ==> hist[j].role != Some("user")
    decreases |hist|
  {
    if hist != [] {
      var k := |hist| - 1;
      var init := hist[..k];
      LastUserIsLatest(init);
      if hist[k].role != Some("user") {
        if exists i :: 0 <= i < |hist| && hist[i].role == Some("user") {
          var i :| 0 <= i < |hist| && hist[i].role == Some("user");
          assert init[i].role == Some("user");
          var i' :| 0 <= i' < |init| && init[i'].role == Some("user") && init[i'].content == LastUser(init)
            && forall j :: i' < j < |init| ==> init[j].role != Some("user");
          assert hist[i'] == init[i'];
          assert forall j :: i' < j < |hist| ==> hist[j].role != Some("user") by {
            forall j | i' < j < |hist| ensures hist[j].role != Some("user") {
              if j < k {
                assert hist[j] == init[j];
              }
            }
          }
        }
        if forall i :: 0 <= i < |hist| ==> hist[i].role != Some("user") {
          assert forall i :: 0 <= i < |init| ==> init[i].role != Some("user") by {
            forall i | 0 <= i < |init| ensures init[i].role != Some("user") {
              assert init[i] == hist[i];
            }
          }
        }
      }
    }
  }

  /** The part of the feedback prompt that quotes the question, if any. */
  function QuestionPart(lastUser: Option<string>): string {
    if Truthy(lastUser) then "Original question:\n" + lastUser.value + "\n\n" else ""
  }

  function FeedbackPrompt(rating: string, lastUser: Option<string>, answer: string): string {
    (if rating == "hard" then HardInstructions else EasyInstructions)
      + "\n\n" + QuestionPart(lastUser) + "\nOriginal answer:\n" + answer + "\n"
  }

  /** The agent's rewrite, or the answer behind a thank-you line. */
  function Followup(rating: string, outcome: Outcome, answer: string): string {
    match outcome
    case Replied(text) => text
    case Raised(_) =>
      if rating == "hard" then "\U{1F642} Thanks for your feedback! Here's a shorter and simpler version:\n\n" + answer
      else "\U{1F4A1} Thanks for your feedback! Here are a few extra details:\n\n" + answer
  }

  predicate KnownRating(rating: Option<string>) {
    rating == Some("easy") || rating == Some("ok") || rating == Some("hard")
  }

  /** `api_feedback`: an unknown rating is a 400 that changes nothing. "ok"
      appends one "feedback" turn and asks nothing; "easy" and "hard" ask the
      agent to rewrite the stripped answer, quoting the latest question, and
      append the rating and the rewrite. A session with no transcript is
      indexed as "Feedback only". */
  function Feedback(s: State, sessionId: Option<string>, newId: string, rating: Option<string>,
                    answer: string, agent: string -> Outcome, now: int): (r: Out<string>)
    requires Valid(s)
    ensures Valid(r.state) && SameAccounts(s, r.state)
    ensures !KnownRating(rating) ==> r == Out(s, Fail(400, "Bad payload"))
    ensures KnownRating(rating) ==>
      var sid := OrElse(sessionId, newId);
      && OthersKept(s, r.state, sid)
      && (GetHistory(s, sid) != [] ==> r.state.index == s.index)
      && (GetHistory(s, sid) == [] ==> r.state.index == EnsureChatIndex(s, sid, "Feedback only", now).index)
    ensures rating == Some("ok") ==>
      var sid := OrElse(sessionId, newId);
      && r.resp == Ok("")
      && GetHistory(r.state, sid) == GetHistory(s, sid) + [Said("feedback", OkNote)]
    ensures rating == Some("easy") || rating == Some("hard") ==>
      var sid := OrElse(sessionId, newId);
      var prompt := FeedbackPrompt(rating.value, LastUser(GetHistory(s, sid)), Strip(answer));
      var followup := Followup(rating.value, agent(prompt), Strip(answer));
      && r.resp == Ok(followup)
      && GetHistory(r.state, sid) == GetHistory(s, sid) + [Said("feedback", "rating:" + rating.value), Said("tutor", followup)]
  {
    var sid := OrElse(sessionId, newId);
    if !KnownRating(rating) then Out(s, Fail(400, "Bad payload"))
    else if rating.value == "ok" then MarkedOk(s, sid, now)
    else Rewrite(s, sid, rating.value, Strip(answer), agent, now)
  }

  /** The "ok" rating of `api_feedback`. */
  function MarkedOk(s: State, sid: string, now: int): (r: Out<string>)
    requires Valid(s)
    ensures Valid(r.state) && SameAccounts(s, r.state) && OthersKept(s, r.state, sid)
    ensures GetHistory(s, sid) != [] ==> r.state.index == s.index
    ensures GetHistory(s, sid) == [] ==> r.state.index == EnsureChatIndex(s, sid, "Feedback only", now).index
    ensures r.resp == Ok("")
    ensures GetHistory(r.state, sid) == GetHistory(s, sid) + [Said("feedback", OkNote)]
  {
    var s1 := IndexIfNew(s, sid, "Feedback only", now);
    Out(AppendHistory(s1, sid, "feedback", OkNote), Ok(""))
  }

  /** The "easy" and "hard" ratings of `api_feedback`, with the answer already
      stripped. */
  function Rewrite(s: State, sid: string, rating: string, answer: string,
                   agent: string -> Outcome, now: int): (r: Out<string>)
    requires Valid(s)
    ensures Valid(r.state) && SameAccounts(s, r.state) && OthersKept(s, r.state, sid)
    ensures GetHistory(s, sid) != [] ==> r.state.index == s.index
    ensures GetHistory(s, sid) == [] ==> r.state.index == EnsureChatIndex(s, sid, "Feedback only", now).index
    ensures var followup := Followup(rating, agent(FeedbackPrompt(rating, LastUser(GetHistory(s, sid)), answer)), answer);
      && r.resp == Ok(followup)
      && GetHistory(r.state, sid) == GetHistory(s, sid) + [Said("feedback", "rating:" + rating), Said("tutor", followup)]
  {
    var followup := Followup(rating, agent(FeedbackPrompt(rating, LastUser(GetHistory(s, sid)), answer)), answer);
    var s1 := IndexIfNew(s, sid, "Feedback only", now);
    Out(Append2(s1, sid, "feedback", "rating:" + rating, "tutor", followup), Ok(followup))
  }

  /** Feedback right after a question quotes that question: the latest user
      turn is the one `api_chat` has just appended. */
  lemma FeedbackQuotesQuestion(s: State, message: string, sid: string, newId: string,
                               agent: string -> Outcome, now: int)
    requires Valid(s) && sid != []
    ensures var s1 := Chat(s, message, Some(sid), newId, agent, now).state;
      LastUser(GetHistory(s1, sid)) == Some(message)
  {
    var s1 := Chat(s, message, Some(sid), newId, agent, now).state;
    var h := GetHistory(s1, sid);
    assert h[|h| - 1].role == Some("tutor");
    assert h[..|h| - 1][|h| - 2] == Said("user", message);
  }

  // ---------------------------------------------------------------------------
  // /api/search_chat

  /** One search result: the turn's role ("?" when missing) and content (""
      when missing). */
  datatype Match = Match(role: string, content: string)

  function View(t: Turn): Match {
    Match(t.role.GetOr("?"), t.content.GetOr(""))
  }

  /** The turn's lower-cased content contains the lower-cased query. */
  predicate Hit(t: Turn, q: string) {
    Contains(Lower(t.content.GetOr("")), Lower(q))
  }

  /** The matching turns of a history, in order. */
  function Matches(hist: seq<Turn>, q: string): (r: seq<Match>)
    ensures |r| <= |hist|
    decreases |hist|
  {
    if hist == [] then []
    else
      var k := |hist| - 1;
      Matches(hist[..k], q) + (if Hit(hist[k], q) then [View(hist[k])] else [])
  }

  /** Searching a concatenation searches each part. */
  lemma {:induction false} MatchesConcat(a: seq<Turn>, b: seq<Turn>, q: string)
    ensures Matches(a + b, q) == Matches(a, q) + Matches(b, q)
    decreases |b|
  {
    if b == [] {
      assert a + b == a;
    } else {
      var k := |b| - 1;
      assert (a + b)[..|a + b| - 1] == a + b[..k];
      assert (a + b)[|a + b| - 1] == b[k];
      MatchesConcat(a, b[..k], q);
    }
  }

  /** A result is the view of a matching turn, and every matching turn gives
      a result. */
  lemma {:induction false} MatchesMembers(hist: seq<Turn>, q: string)
    ensures forall m :: m in Matches(hist, q) <==>
      exists i :: 0 <= i < |hist| && Hit(hist[i], q) && View(hist[i]) == m
    decreases |hist|
  {
    if hist != [] {
      var k := |hist| - 1;
      MatchesMembers(hist[..k], q);
      forall m ensures m in Matches(hist, q) <==>
        exists i :: 0 <= i < |hist| && Hit(hist[i], q) && View(hist[i]) == m
      {
        if m in Matches(hist[..k], q) {
          var i :| 0 <= i < k && Hit(hist[..k][i], q) && View(hist[..k][i]) == m;
          assert hist[i] == hist[..k][i];
        }
        if exists i :: 0 <= i < |hist| && Hit(hist[i], q) && View(hist[i]) == m {
          var i :| 0 <= i < |hist| && Hit(hist[i], q) && View(hist[i]) == m;
          if i < k {
            assert hist[..k][i] == hist[i];
          }
        }
      }
    }
  }

  /** The query's letter case does not matter. */
  lemma {:induction false} MatchesIgnoreCase(hist: seq<Turn>, q: string)
    ensures Matches(hist, Lower(q)) == Matches(hist, q)
    decreases |hist|
  {
    LowerIdempotent(q);
    if hist != [] {
      MatchesIgnoreCase(hist[..|hist| - 1], q);
    }
  }

  /** The empty query finds every turn. */
  lemma {:induction false} EmptyQueryFindsAll(hist: seq<Turn>)
    ensures |Matches(hist, "")| == |hist|
    decreases |hist|
  {
    if hist != [] {
      EmptyQueryFindsAll(hist[..|hist| - 1]);
      ContainsEmpty(Lower(hist[|hist| - 1].content.GetOr("")));
    }
  }

  /** `api_search_chat`: the session's matching turns in transcript order. */
  function SearchChat(s: State, sid: string, q: string): (r: seq<Match>)
    ensures forall m :: m in r <==>
      exists i :: 0 <= i < |GetHistory(s, sid)| && Hit(GetHistory(s, sid)[i], q) && View(GetHistory(s, sid)[i]) == m
  {
    MatchesMembers(GetHistory(s, sid), q);
    Matches(GetHistory(s, sid), q)
  }

  // ---------------------------------------------------------------------------
  // /api/start_quiz

  /** What `json.loads` makes of the unfenced reply: a list of questions, some
      other JSON value, or an error with its message. */
  datatype Parsed<Q> = JsonList(items: seq<Q>) | JsonOther | JsonError(message: string)

  /** The questions, or the message of the exception that ended the attempt. */
  datatype Generated<Q> = Questions(items: seq<Q>) | Failed(message: string)

  datatype QuizReply<Q> = QuizReply(quiz: seq<Q>, raw: Option<string>, sessionId: string)

  const QuizSystem :=
    "You are a strict quiz generator for exam prep.\nYou MUST output ONLY valid JSON, no backticks, no extra text."

  const QuizRateLimitTurn := "\U{26A0}\U{FE0F} Quiz generation hit the API rate limit. Please wait and try again."
  const QuizRateLimitRaw := "Quiz generation hit the OpenAI API rate limit."
  const QuizFailedTurn := "Generated a quiz (raw text)."
  const QuizFailedRaw := "Quiz generation failed or invalid JSON."

  /** The user message sent with `QuizSystem`. */
  function QuizAsk(topic: string, count: nat): string {
    "Generate " + NatToString(count) + " multiple-choice questions about \"" + topic
      + "\". Return JSON only in this exact format:\n[{\"question\": \"...\", \"options\": [\"A\",\"B\",\"C\",\"D\"], \"answer_index\": 0, \"explanation\": \"...\"}]"
  }

  /** The user turn the transcript records for a quiz request. */
  function QuizLog(topic: string, count: nat): string {
    "[quiz request] " + topic + " (" + NatToString(count) + " Qs)"
  }

  function QuizDone<Q>(topic: string, quiz: seq<Q>): string {
    "Generated a quiz with " + NatToString(|quiz|) + " questions on " + topic + "."
  }

  /** The model's reply taken through fence stripping, `json.loads` and the
      list check. */
  function Generate<Q>(outcome: Outcome, parse: string -> Parsed<Q>): (g: Generated<Q>)
    ensures g.Questions? <==> outcome.Replied? && parse(Quiz.Unfence(outcome.text)).JsonList?
    ensures g.Questions? ==> g.items == parse(Quiz.Unfence(outcome.text)).items
    ensures outcome.Raised? ==> g == Failed(outcome.message)
    ensures outcome.Replied? && parse(Quiz.Unfence(outcome.text)).JsonOther? ==> g == Failed("Quiz is not a list")
    ensures outcome.Replied? && parse(Quiz.Unfence(outcome.text)).JsonError? ==>
      g == Failed(parse(Quiz.Unfence(outcome.text)).message)
  {
    match outcome
    case Raised(e) => Failed(e)
    case Replied(text) =>
      match parse(Quiz.Unfence(text))
      case JsonList(items) => Questions(items)
      case JsonOther => Failed("Quiz is not a list")
      case JsonError(e) => Failed(e)
  }

  /** `api_start_quiz`. A blank topic is a 400 that changes nothing. Otherwise
      the count is 5 or 10, and the transcript gains the request as a "user"
      turn and one "tutor" turn: the question count on success, or a note
      telling a rate limit from any other failure, which return no questions.
      The chat index is never touched. */
  function StartQuiz<Q>(s: State, topic: string, count: Option<int>, sessionId: Option<string>, newId: string,
                        generate: (string, string) -> Outcome, parse: string -> Parsed<Q>): (r: Out<QuizReply<Q>>)
    ensures Strip(topic) == [] ==> r == Out(s, Fail(400, "Missing topic"))
    ensures Strip(topic) != [] ==>
      var t := Strip(topic);
      var n := Quiz.NormaliseCount(count);
      QuizAnswered(s, r, OrElse(sessionId, newId), t, n, Generate(generate(QuizSystem, QuizAsk(t, n)), parse))
  {
    var t := Strip(topic);
    if t == [] then Out(s, Fail(400, "Missing topic"))
    else
      var n := Quiz.NormaliseCount(count);
      var sid := OrElse(sessionId, newId);
      QuizRecorded(s, sid, t, n, Generate(generate(QuizSystem, QuizAsk(t, n)), parse))
  }

  /** The effect of a finished quiz attempt `g` on session `sid`: accounts,
      index and other transcripts kept; the request and one tutor turn
      appended; the questions returned, or none and a note on the failure. */
  ghost predicate QuizAnswered<Q>(s: State, r: Out<QuizReply<Q>>, sid: string, t: string, n: nat, g: Generated<Q>) {
    && SameAccounts(s, r.state) && r.state.index == s.index && OthersKept(s, r.state, sid)
    && r.resp.Ok? && r.resp.body.sessionId == sid
    && (g.Questions? ==>
         && r.resp.body.quiz == g.items && r.resp.body.raw == None
         && GetHistory(r.state, sid) == GetHistory(s, sid) + [Said("user", QuizLog(t, n)), Said("tutor", QuizDone(t, g.items))])
    && (g.Failed? ==>
         && r.resp.body.quiz == []
         && r.resp.body.raw == Some(FailedRaw(g.message))
         && GetHistory(r.state, sid) == GetHistory(s, sid) +
              [Said("user", QuizLog(t, n)), Said("tutor", FailedTurn(g.message))])
  }

  /** The two turns `api_start_quiz` records once the attempt is over, and its
      answer. */
  function QuizRecorded<Q>(s: State, sid: string, t: string, n: nat, g: Generated<Q>): (r: Out<QuizReply<Q>>)
    ensures QuizAnswered(s, r, sid, t, n, g)
  {
    match g
    case Questions(items) =>
      Out(Append2(s, sid, "user", QuizLog(t, n), "tutor", QuizDone(t, items)), Ok(QuizReply(items, None, sid)))
    case Failed(e) =>
      Out(Append2(s, sid, "user", QuizLog(t, n), "tutor", FailedTurn(e)), Ok(QuizReply([], Some(FailedRaw(e)), sid)))
  }

  /** The tutor turn recorded for a failed quiz: a rate limit is told apart
      from every other failure. */
  function FailedTurn(e: string): string {
    if IsRateLimit(e) then QuizRateLimitTurn else QuizFailedTurn
  }

  /** The `raw` field of the answer to a failed quiz. */
  function FailedRaw(e: string): string {
    if IsRateLimit(e) then QuizRateLimitRaw else QuizFailedRaw
  }

  /** A reply fenced as "```json" around a JSON list is accepted as it is. */
  lemma FencedQuizAccepted<Q>(j: string, items: seq<Q>, parse: string -> Parsed<Q>)
    requires Quiz.Bare(j) && parse(j) == JsonList(items)
    ensures Generate(Replied("```json\n" + j + "\n```"), parse) == Questions(items)
  {
    Quiz.UnfenceTagged(j);
  }

  // ---------------------------------------------------------------------------
  // /api/log_quiz_result

  /** `api_log_quiz_result`: a blank result is a 400 that changes nothing;
      otherwise the stripped result becomes a "tutor" turn, and a session with
      no transcript is indexed as "[Quiz result]". */
  function LogQuizResult(s: State, sessionId: Option<string>, newId: string, result: string, now: int): (r: Out<string>)
    requires Valid(s)
    ensures Valid(r.state) && SameAccounts(s, r.state)
    ensures Strip(result) == [] ==> r == Out(s, Fail(400, "Missing result_markdown"))
    ensures Strip(result) != [] ==>
      var sid := OrElse(sessionId, newId);
      && r.resp == Ok(sid)
      && GetHistory(r.state, sid) == GetHistory(s, sid) + [Said("tutor", Strip(result))]
      && OthersKept(s, r.state, sid)
      && (GetHistory(s, sid) != [] ==> r.state.index == s.index)
      && (GetHistory(s, sid) == [] ==> r.state.index == EnsureChatIndex(s, sid, "[Quiz result]", now).index)
  {
    var sid := OrElse(sessionId, newId);
    var md := Strip(result);
    if md == [] then Out(s, Fail(400, "Missing result_markdown"))
    else
      var s1 := IndexIfNew(s, sid, "[Quiz result]", now);
      Out(AppendHistory(s1, sid, "tutor", md), Ok(sid))
  }

  // ---------------------------------------------------------------------------
  // /api/list_chats

  /** One row of the saved-chat list. */
  datatype ChatRow = ChatRow(sessionId: string, title: string, createdAt: int)

  function Row(sid: string, info: ChatInfo): ChatRow {
    ChatRow(sid, info.title.GetOr("Chat"), info.createdAt.GetOr(0))
  }

  /** The rows in index order, before sorting. */
  function Rows(s: State): (rows: seq<ChatRow>)
    requires Valid(s)
    ensures |rows| == |s.index.keys|
    ensures forall i :: 0 <= i < |rows| ==> rows[i] == Row(s.index.keys[i], s.index.entries[s.index.keys[i]])
  {
    var items := Dicts.Items(s.index);
    seq(|items|, i requires 0 <= i < |items| => Row(items[i].0, items[i].1))
  }

  /** `reverse=True` on `created_at`: a row may come before any row that is
      not newer. */
  predicate NewerOrSame(a: ChatRow, b: ChatRow) {
    a.createdAt >= b.createdAt
  }

  lemma NewerOrSameTotalPreorder()
    ensures Sorting.TotalPreorder(NewerOrSame)
  {
  }

  /** `api_list_chats`: one row per index entry, newest first; chats created
      at the same time stay in index order. */
  function ListChats(s: State): (r: seq<ChatRow>)
    requires Valid(s)
    ensures multiset(r) == multiset(Rows(s))
    ensures Sorting.SortedBy(r, NewerOrSame)
    ensures forall e :: Sorting.TiesWith(r, NewerOrSame, e) == Sorting.TiesWith(Rows(s), NewerOrSame, e)
  {
    NewerOrSameTotalPreorder();
    Sorting.SortSorted(Rows(s), NewerOrSame);
    forall e ensures Sorting.TiesWith(Sorting.Sort(Rows(s), NewerOrSame), NewerOrSame, e) == Sorting.TiesWith(Rows(s), NewerOrSame, e) {
      Sorting.SortStable(Rows(s), NewerOrSame, e);
    }
    Sorting.Sort(Rows(s), NewerOrSame)
  }

  /** Every saved chat is listed once, with its title ("Chat" when missing)
      and creation time (0 when missing). */
  lemma ListChatsRows(s: State)
    requires Valid(s)
    ensures |ListChats(s)| == |s.index.keys|
    ensures forall k :: k in s.index.entries <==> exists i :: 0 <= i < |ListChats(s)| && ListChats(s)[i].sessionId == k
    ensures forall row :: row in ListChats(s) ==>
      row.sessionId in s.index.entries && row == Row(row.sessionId, s.index.entries[row.sessionId])
  {
    var r := ListChats(s);
    var rows := Rows(s);
    assert |r| == |rows| by {
      assert |multiset(r)| == |multiset(rows)|;
    }
    forall row | row in r
      ensures row.sessionId in s.index.entries && row == Row(row.sessionId, s.index.entries[row.sessionId])
    {
      assert row in multiset(rows);
      var i :| 0 <= i < |rows| && rows[i] == row;
      assert s.index.keys[i] in s.index.keys;
    }
    forall k | k in s.index.entries
      ensures exists i :: 0 <= i < |r| && r[i].sessionId == k
    {
      var j :| 0 <= j < |s.index.keys| && s.index.keys[j] == k;
      assert rows[j] in multiset(r);
      var i :| 0 <= i < |r| && r[i] == rows[j];
    }
  }

  // ---------------------------------------------------------------------------
  // /api/rename_chat and /api/delete_chat

  /** `api_rename_chat`: a missing or empty id or title is a 400 and an
      unknown id a 404, neither changing anything; otherwise only that entry's
      title changes, to the stripped title or "Chat" when nothing is left. */
  function RenameChat(s: State, sid: Option<string>, title: Option<string>): (r: Out<string>)
    requires Valid(s)
    ensures Valid(r.state)
    ensures !Truthy(sid) || !Truthy(title) ==> r == Out(s, Fail(400, "Missing session_id or title"))
    ensures Truthy(sid) && Truthy(title) && sid.value !in s.index.entries ==> r == Out(s, Fail(404, "Chat not found"))
    ensures Truthy(sid) && Truthy(title) && sid.value in s.index.entries ==>
      var info := s.index.entries[sid.value];
      && r.resp == Ok("renamed")
      && r.state == s.(index := Dicts.Dict(s.index.keys,
           s.index.entries[sid.value := info.(title := Some(if Strip(title.value) == [] then "Chat" else Strip(title.value)))]))
  {
    if !Truthy(sid) || !Truthy(title) then Out(s, Fail(400, "Missing session_id or title"))
    else if sid.value !in s.index.entries then Out(s, Fail(404, "Chat not found"))
    else
      var info := s.index.entries[sid.value];
      var t := Strip(title.value);
      Out(s.(index := Dicts.Put(s.index, sid.value, info.(title := Some(if t == [] then "Chat" else t)))), Ok("renamed"))
  }

  /** A rename keeps the saved-chat list in place: the same rows in the same
      order with the same creation times, and only the renamed chat's title
      differs. */
  lemma RenameChatRows(s: State, sid: string, title: string)
    requires Valid(s) && sid != [] && sid in s.index.entries && title != []
    ensures var t := RenameChat(s, Some(sid), Some(title)).state;
      && |Rows(t)| == |Rows(s)|
      && forall i :: 0 <= i < |Rows(s)| ==>
           && Rows(t)[i].sessionId == Rows(s)[i].sessionId
           && Rows(t)[i].createdAt == Rows(s)[i].createdAt
           && Rows(t)[i].title == if Rows(s)[i].sessionId == sid then (if Strip(title) == [] then "Chat" else Strip(title))
                                  else Rows(s)[i].title
  {
    assert Truthy(Some(sid)) && Truthy(Some(title));
    var t := RenameChat(s, Some(sid), Some(title)).state;
    var nt := if Strip(title) == [] then "Chat" else Strip(title);
    assert t.index.keys == s.index.keys;
    assert t.index.entries == s.index.entries[sid := s.index.entries[sid].(title := Some(nt))];
    forall i | 0 <= i < |Rows(s)|
      ensures && Rows(t)[i].sessionId == Rows(s)[i].sessionId
              && Rows(t)[i].createdAt == Rows(s)[i].createdAt
              && Rows(t)[i].title == if Rows(s)[i].sessionId == sid then nt else Rows(s)[i].title
    {
      var k := s.index.keys[i];
      assert Rows(t)[i] == Row(k, t.index.entries[k]);
      assert Rows(s)[i] == Row(k, s.index.entries[k]);
    }
  }

  /** `api_delete_chat`: a missing or empty id is a 400 that changes nothing;
      otherwise the index entry (if any) and the transcript file (if any) are
      removed, and the answer is "deleted" either way. */
  function DeleteChat(s: State, sid: Option<string>): (r: Out<string>)
    requires Valid(s)
    ensures Valid(r.state) && SameAccounts(s, r.state)
    ensures !Truthy(sid) ==> r == Out(s, Fail(400, "Missing session_id"))
    ensures Truthy(sid) ==>
      && r.resp == Ok("deleted")
      && r.state.index.entries == s.index.entries - {sid.value}
      && (forall k :: k in r.state.index.keys <==> k in s.index.keys && k != sid.value)
      && r.state.index.keys == Dicts.Without(s.index.keys, sid.value)
      && r.state.files == s.files - {MetaFile(sid.value)}
  {
    if !Truthy(sid) then Out(s, Fail(400, "Missing session_id"))
    else
      assert sid.value !in s.index.entries ==> Dicts.Without(s.index.keys, sid.value) == s.index.keys by {
        if sid.value !in s.index.entries {
          Dicts.WithoutAbsent(s.index.keys, sid.value);
        }
      }
      var index := if sid.value in s.index.entries then Dicts.Remove(s.index, sid.value) else s.index;
      Out(s.(index := index, files := s.files - {MetaFile(sid.value)}), Ok("deleted"))
  }

  /** After a delete the chat has no transcript, nor has any id sharing its
      file; other transcripts are kept; deleting again changes nothing. */
  lemma DeleteChatForgets(s: State, sid: string, other: string)
    requires Valid(s) && sid != []
    ensures var t := DeleteChat(s, Some(sid)).state;
      && GetHistory(t, sid) == []
      && sid !in t.index.entries
      && (MetaFile(other) == MetaFile(sid) ==> GetHistory(t, other) == [])
      && (MetaFile(other) != MetaFile(sid) ==> GetHistory(t, other) == GetHistory(s, other))
      && DeleteChat(t, Some(sid)).state == t
  {
    var t := DeleteChat(s, Some(sid)).state;
    var t2 := DeleteChat(t, Some(sid)).state;
    assert t2.files == t.files;
    assert t2.index == t.index;
  }

  // ---------------------------------------------------------------------------
  // Accounts

  /** `api_register`: all three fields must be present and non-empty; the
      answer is `create_user`'s message, with status 400 when it refused. */
  function Register(s: State, name: Option<string>, email: Option<string>, password: Option<string>,
                    salt: string, sha: string -> string): (r: Out<string>)
    ensures !(Truthy(name) && Truthy(email) && Truthy(password)) ==> r == Out(s, Fail(400, "Missing fields"))
    ensures Truthy(name) && Truthy(email) && Truthy(password) ==>
      var c := CreateUser(s, name.value, email.value, password.value, salt, sha);
      && r.state == c.0
      && r.resp == if c.1.ok then Ok(c.1.message) else Fail(400, c.1.message)
    ensures r.resp.Ok? <==> Truthy(name) && Truthy(email) && Truthy(password) && email.value !in s.users
    ensures r.resp.Ok? ==> VerifyUser(r.state.users, email, password.value, sha) == Verdict(true, name.value)
    ensures !r.resp.Ok? ==> r.state == s
    ensures r.state.logins == s.logins && r.state.index == s.index && r.state.files == s.files
  {
    if !(Truthy(name) && Truthy(email) && Truthy(password)) then Out(s, Fail(400, "Missing fields"))
    else
      var c := CreateUser(s, name.value, email.value, password.value, salt, sha);
      Out(c.0, if c.1.ok then Ok(c.1.message) else Fail(400, c.1.message))
  }

  /** `api_login`: a refused login is a 400 with `verify_user`'s message; an
      accepted one stores the new token for the e-mail and answers "ok". A
      missing password for a known e-mail makes the salting raise: a 500. */
  function Login(s: State, email: Option<string>, password: Option<string>, token: string,
                 sha: string -> string): (r: Out<string>)
    ensures !(email.Some? && email.value in s.users) ==> r == Out(s, Fail(400, "User not found"))
    ensures email.Some? && email.value in s.users && password.None? ==> r == Out(s, Fail(500, "Internal Server Error"))
    ensures email.Some? && email.value in s.users && password.Some? ==>
      var v := VerifyUser(s.users, email, password.value, sha);
      && (v.ok ==> r == Out(CreateSession(s, email.value, token), Ok("ok")))
      && (!v.ok ==> r == Out(s, Fail(400, v.message)))
    ensures r.resp.Ok? ==>
      && email.Some? && email.value in s.users && password.Some?
      && VerifyUser(s.users, email, password.value, sha).ok
      && (token != [] ==> WhoAmI(r.state, Some(token)) == LoggedIn(email.value, s.users[email.value].name))
    ensures !r.resp.Ok? ==> r.state == s
  {
    if !(email.Some? && email.value in s.users) then Out(s, Fail(400, "User not found"))
    else if password.None? then Out(s, Fail(500, "Internal Server Error"))
    else
      var v := VerifyUser(s.users, email, password.value, sha);
      if v.ok then Out(CreateSession(s, email.value, token), Ok("ok"))
      else Out(s, Fail(400, v.message))
  }

  /** `api_logout`: forget the cookie's token, if any; always "logged out". */
  function Logout(s: State, token: Option<string>): (r: Out<string>)
    ensures r.resp == Ok("logged out")
    ensures r.state == DeleteSession(s, token)
    ensures WhoAmI(r.state, token) == Anonymous
    ensures forall t :: Some(t) != token ==> WhoAmI(r.state, Some(t)) == WhoAmI(s, Some(t))
  {
    Out(DeleteSession(s, token), Ok("logged out"))
  }

  // ---------------------------------------------------------------------------
  // The session cookie

  /** A change a reply asks the browser to make to its `session_token` cookie. */
  datatype CookieUpdate = KeepCookie | SetCookie(value: string) | ClearCookie

  /** The browser's `session_token` cookie once a reply has arrived. */
  function ApplyCookie(jar: Option<string>, u: CookieUpdate): Option<string> {
    match u
    case KeepCookie => jar
    case SetCookie(v) => Some(v)
    case ClearCookie => None
  }

  /** The cookie change `api_login` makes on the response FastAPI injects: the
      new token after an accepted login, nothing after a refused one. */
  function LoginCookie(s: State, email: Option<string>, password: Option<string>, token: string,
                       sha: string -> string): (c: CookieUpdate)
    ensures c != ClearCookie
    ensures c.SetCookie? <==> Login(s, email, password, token, sha).resp.Ok?
    ensures c.SetCookie? ==> c.value == token
  {
    if Login(s, email, password, token, sha).resp.Ok? then SetCookie(token) else KeepCookie
  }

  /** What reaches the browser as written. `api_login` and `api_logout` return
      a `JSONResponse` of their own, and FastAPI sends a returned response as
      it is: the cookies set on the injected response are dropped. */
  function SentAsWritten(injected: CookieUpdate): CookieUpdate {
    KeepCookie
  }

  /** What reaches the browser once the cookie is set on the returned response. */
  function Sent(injected: CookieUpdate): CookieUpdate {
    injected
  }

  /** As written, a browser without a cookie that registers and logs in stays
      anonymous: the token is stored and would identify the account, but its
      cookie never arrives. */
  lemma LoginCookieLost(s: State, name: string, email: string, password: string,
                        salt: string, token: string, sha: string -> string)
    requires name != [] && email != [] && password != [] && token != [] && email !in s.users
    ensures var s1 := Register(s, Some(name), Some(email), Some(password), salt, sha);
      var s2 := Login(s1.state, Some(email), Some(password), token, sha);
      var jar := ApplyCookie(None, SentAsWritten(LoginCookie(s1.state, Some(email), Some(password), token, sha)));
      && s2.resp == Ok("ok")
      && LoginCookie(s1.state, Some(email), Some(password), token, sha) == SetCookie(token)
      && WhoAmI(s2.state, Some(token)) == LoggedIn(email, name)
      && jar == None
      && WhoAmI(s2.state, jar) == Anonymous
  {
    RegisterLoginWhoAmI(s, name, email, password, salt, token, sha);
  }

  /** With the cookie on the returned response, a browser that registers and
      logs in is logged in as the new account, whatever cookie it held. */
  lemma LoginCookieKept(s: State, name: string, email: string, password: string,
                        salt: string, token: string, sha: string -> string, jar: Option<string>)
    requires name != [] && email != [] && password != [] && token != [] && email !in s.users
    ensures var s1 := Register(s, Some(name), Some(email), Some(password), salt, sha);
      var s2 := Login(s1.state, Some(email), Some(password), token, sha);
      var jar2 := ApplyCookie(jar, Sent(LoginCookie(s1.state, Some(email), Some(password), token, sha)));
      && jar2 == Some(token)
      && WhoAmI(s2.state, jar2) == LoggedIn(email, name)
  {
    RegisterLoginWhoAmI(s, name, email, password, salt, token, sha);
  }

  /** Logging out leaves the browser anonymous even though, as written, the
      cookie is not cleared: the token it still holds is no longer known. */
  lemma LogoutForgets(s: State, jar: Option<string>)
    ensures WhoAmI(Logout(s, jar).state, ApplyCookie(jar, SentAsWritten(ClearCookie))) == Anonymous
    ensures WhoAmI(Logout(s, jar).state, ApplyCookie(jar, Sent(ClearCookie))) == Anonymous
  {
  }

  /** Registering and logging in with the same password makes the new token
      identify the new account in the token table. */
  lemma RegisterLoginWhoAmI(s: State, name: string, email: string, password: string,
                            salt: string, token: string, sha: string -> string)
    requires name != [] && email != [] && password != [] && token != [] && email !in s.users
    ensures var s1 := Register(s, Some(name), Some(email), Some(password), salt, sha);
      var s2 := Login(s1.state, Some(email), Some(password), token, sha);
      && s1.resp == Ok("Account created")
      && s2.resp == Ok("ok")
      && WhoAmI(s2.state, Some(token)) == LoggedIn(email, name)
  {
    RegisterThenVerify(s, name, email, password, salt, sha);
  }

  // ---------------------------------------------------------------------------
  // /api/export_chat_pdf

  /** The text of one transcript line of the PDF, before wrapping. */
  function PdfLine(t: Turn): string {
    Capitalize(t.role.GetOr("?")) + ": " + t.content.GetOr("")
  }

  /** All words of all transcript lines, in order. */
  function TranscriptWords(hist: seq<Turn>): seq<string>
    decreases |hist|
  {
    if hist == [] then [] else TranscriptWords(hist[..|hist| - 1]) + Split(PdfLine(hist[|hist| - 1]))
  }

  /** The drawn lines of `api_export_chat_pdf` (the page layout is not
      modelled): a 404 when there is no history; otherwise each turn's line
      wrapped at 90 characters, so that the words drawn are exactly the
      words of the transcript lines, in order, and every drawn line of two or
      more words fits in 90 characters. */
  method ExportChat(s: State, sid: string) returns (r: Resp<seq<string>>)
    ensures GetHistory(s, sid) == [] <==> r == Fail(404, "No chat history")
    ensures r.Ok? ==> Wrap.FlatWords(r.body) == TranscriptWords(GetHistory(s, sid))
    ensures r.Ok? ==> Drawable(r.body)
    ensures r.Ok? ==> r.body == Drawn(GetHistory(s, sid))
  {
    var hist := GetHistory(s, sid);
    if hist == [] {
      return Fail(404, "No chat history");
    }
    var drawn: seq<string> := [];
    var i := 0;
    while i < |hist|
      invariant i <= |hist|
      invariant Wrap.FlatWords(drawn) == TranscriptWords(hist[..i])
      invariant Drawable(drawn)
      invariant drawn == Drawn(hist[..i])
    {
      var chunks := Wrap.WrapText(PdfLine(hist[i]), 90);
      ExportStep(hist, i, drawn, chunks);
      DrawnSnoc(hist, i);
      drawn := drawn + chunks;
      i := i + 1;
    }
    assert hist[..i] == hist;
    return Ok(drawn);
  }

  /** The drawn lines: each turn's line wrapped on its own, turn after turn. */
  function Drawn(hist: seq<Turn>): seq<string>
    decreases |hist|
  {
    if hist == [] then [] else Drawn(hist[..|hist| - 1]) + Wrap.Wrapped(PdfLine(hist[|hist| - 1]), 90)
  }

  lemma DrawnSnoc(hist: seq<Turn>, i: nat)
    requires i < |hist|
    ensures Drawn(hist[..i + 1]) == Drawn(hist[..i]) + Wrap.Wrapped(PdfLine(hist[i]), 90)
  {
    var pre := hist[..i + 1];
    assert pre[..i] == hist[..i] && pre[i] == hist[i];
  }

  /** Drawing the wrapped lines of one more turn keeps the loop's invariant. */
  lemma ExportStep(hist: seq<Turn>, i: nat, drawn: seq<string>, chunks: seq<string>)
    requires i < |hist|
    requires Wrap.FlatWords(drawn) == TranscriptWords(hist[..i]) && Drawable(drawn)
    requires Wrap.FlatWords(chunks) == Split(PdfLine(hist[i])) && Wrap.LinesOk(chunks, 90)
    ensures Wrap.FlatWords(drawn + chunks) == TranscriptWords(hist[..i + 1])
    ensures Drawable(drawn + chunks)
  {
    FlatWordsConcat(drawn, chunks);
    DrawableConcat(drawn, chunks);
    TranscriptSnoc(hist, i);
  }

  lemma TranscriptSnoc(hist: seq<Turn>, i: nat)
    requires i < |hist|
    ensures TranscriptWords(hist[..i + 1]) == TranscriptWords(hist[..i]) + Split(PdfLine(hist[i]))
  {
    var pre := hist[..i + 1];
    assert pre[..i] == hist[..i] && pre[i] == hist[i];
  }

  /** Lines fit to draw: words joined by single spaces, and at most 90
      characters when they hold two or more words. */
  predicate Drawable(lines: seq<string>) {
    forall k :: 0 <= k < |lines| ==>
      Wrap.SingleSpaced(lines[k]) && (|Split(lines[k])| >= 2 ==> |lines[k]| <= 90)
  }

  lemma DrawableConcat(a: seq<string>, b: seq<string>)
    requires Drawable(a) && Wrap.LinesOk(b, 90)
    ensures Drawable(a + b)
  {
    forall k | 0 <= k < |a + b|
      ensures Wrap.SingleSpaced((a + b)[k]) && (|Split((a + b)[k])| >= 2 ==> |(a + b)[k]| <= 90)
    {
      if k >= |a| {
        assert (a + b)[k] == b[k - |a|];
      } else {
        assert (a + b)[k] == a[k];
      }
    }
  }

  lemma {:induction false} FlatWordsConcat(a: seq<string>, b: seq<string>)
    ensures Wrap.FlatWords(a + b) == Wrap.FlatWords(a) + Wrap.FlatWords(b)
    decreases |b|
  {
    if b == [] {
      assert a + b == a;
    } else {
      var k := |b| - 1;
      DropLastConcat(a, b);
      assert (a + b)[|a + b| - 1] == b[k];
      FlatWordsConcat(a, b[..k]);
      Assoc(Wrap.FlatWords(a), Wrap.FlatWords(b[..k]), Split(b[k]));
    }
  }
}

=== FILE: optional.dfy ===
/** The Option type used wherever the web app reads a JSON field with `.get()`:
    `None` is an absent key, `Some(v)` a present one. */
module Optional {

  datatype Option<+T> = None | Some(value: T) {

    /** The value, or `default` when absent (the two-argument `dict.get`). */
    function GetOr(default: T): (r: T)
      ensures Some? ==> r == value
      ensures None? ==> r == default
    {
      match this
      case Some(v) => v
      case None => default
    }
  }
}

=== FILE: quiz.dfy ===
/** The quiz pieces of src/web_app.py: the question-count rule and the
    code-fence stripping of `api_start_quiz`, and the browser's `gradeQuiz`
    score. */
module Quiz {
  import opened Optional
  import opened Text

  // ---------------------------------------------------------------------------
  // Question count

  /** `int(payload.get("count", 5) or 5)` followed by the `(5, 10)` check. The
      request field is `None` when absent or null; 0 is falsy and also gives 5. */
  function NormaliseCount(count: Option<int>): (r: int)
    ensures r == 5 || r == 10
    ensures r == 10 <==> count == Some(10)
  {
    var n := if count.None? || count.value == 0 then 5 else count.value;
    if n != 5 && n != 10 then 5 else n
  }

  // ---------------------------------------------------------------------------
  // Code fences around the generated JSON

  predicate IsBacktick(c: char) {
    c == '`'
  }

  /** The model's reply as handed to `json.loads`: stripped; and when it opens
      with three backticks, cleared of backticks at both ends and then of a
      leading "json" tag. */
  function Unfence(reply: string): (r: string)
    ensures !("```" <= Strip(reply)) ==> r == Strip(reply)
  {
    var text := Strip(reply);
    if "```" <= text then Untag(Trim(text, IsBacktick)) else text
  }

  /** A leading "json" tag (any letter case) is dropped together with the
      whitespace around what follows. */
  function Untag(inner: string): (r: string)
    ensures !("json" <= Lower(inner)) ==> r == inner
    ensures "json" <= Lower(inner) ==> |r| <= |inner| - 4 && Strip(r) == r
  {
    if "json" <= Lower(inner) then
      StripIdempotent(inner[4..]);
      Strip(inner[4..])
    else inner
  }

  /** Text with no whitespace at its ends and no backtick at its ends, such as
      a JSON array. */
  predicate Bare(j: string) {
    j != [] && !IsSpace(j[0]) && !IsSpace(j[|j| - 1]) && j[0] != '`' && j[|j| - 1] != '`'
  }

  /** Clearing backticks off a fenced body that has none at its own ends
      leaves the body. */
  lemma TrimFence(inner: string)
    requires inner != [] && inner[0] != '`' && inner[|inner| - 1] != '`'
    ensures Trim("```" + inner + "```", IsBacktick) == inner
  {
    var tail := inner + "```";
    assert "```" + inner + "```" == "```" + tail by { Assoc("```", inner, "```"); }
    assert TrimStart("```" + tail, IsBacktick) == TrimStart(tail, IsBacktick) by {
      TrimStartSkip("```", tail, IsBacktick);
    }
    assert TrimStart(tail, IsBacktick) == tail by {
      assert tail[0] == inner[0];
    }
    assert TrimEnd(tail, IsBacktick) == TrimEnd(inner, IsBacktick) by {
      TrimEndSkip(inner, "```", IsBacktick);
    }
  }

  /** A fenced reply is its own `strip()`, and is unfenced by untagging what
      lies between the fences. */
  lemma UnfenceFenced(inner: string)
    requires inner != [] && inner[0] != '`' && inner[|inner| - 1] != '`'
    ensures Unfence("```" + inner + "```") == Untag(inner)
  {
    var reply := "```" + inner + "```";
    assert "```" <= reply by { Assoc("```", inner, "```"); }
    assert Trim(reply, IsBacktick) == inner by { TrimFence(inner); }
    assert Strip(reply) == reply by { FencedIsStripped(inner); }
    UnfenceOpening(reply, inner);
  }

  lemma UnfenceOpening(reply: string, inner: string)
    requires Strip(reply) == reply && "```" <= reply && Trim(reply, IsBacktick) == inner
    ensures Unfence(reply) == Untag(inner)
  {
  }

  lemma FencedIsStripped(inner: string)
    ensures Strip("```" + inner + "```") == "```" + inner + "```"
  {
    var reply := "```" + inner + "```";
    assert reply[0] == '`' && reply[|reply| - 1] == '`';
    StripClean(reply);
  }

  /** A "json" tag on its own line is dropped with the line break. */
  lemma UntagJson(j: string)
    requires Bare(j)
    ensures Untag("json\n" + j + "\n") == j
  {
    var inner := "json\n" + j + "\n";
    assert inner == "json" + ("\n" + j + "\n");
    assert "json" <= Lower(inner) by {
      LowerConcat("json", "\n" + j + "\n");
      assert Lower(inner)[..4] == "json";
    }
    assert Strip(inner[4..]) == j by {
      assert inner[4..] == "\n" + j + "\n";
      StripPadded("\n", j, "\n");
      StripClean(j);
    }
    UntagTagged(inner);
  }

  lemma UntagTagged(inner: string)
    requires "json" <= Lower(inner)
    ensures Untag(inner) == Strip(inner[4..])
  {
  }

  /** Without a tag the body is kept as it is. */
  lemma UntagPlain(j: string)
    ensures Untag("\n" + j + "\n") == "\n" + j + "\n"
  {
    var inner := "\n" + j + "\n";
    assert Lower(inner)[0] == '\n';
  }

  /** A reply fenced as "```json" ... "```" unfences to exactly its body. */
  lemma UnfenceTagged(j: string)
    requires Bare(j)
    ensures Unfence("```json\n" + j + "\n```") == j
  {
    var inner := "json\n" + j + "\n";
    assert "```json\n" + j + "\n```" == "```" + inner + "```";
    UnfenceFenced(inner);
    UntagJson(j);
  }

  /** An untagged fence "```" ... "```" keeps the newlines around its body,
      which `json.loads` ignores. */
  lemma UnfenceUntagged(j: string)
    ensures Unfence("```\n" + j + "\n```") == "\n" + j + "\n"
  {
    var inner := "\n" + j + "\n";
    assert "```\n" + j + "\n```" == "```" + inner + "```";
    UnfenceFenced(inner);
    UntagPlain(j);
  }

  // ---------------------------------------------------------------------------
  // Scoring in the browser

  /** The `answer_index` field of one generated question, as JavaScript sees
      it: absent (`undefined`), `null`, a number, or some other JSON value. */
  datatype AnswerField = Missing | Null | Number(n: int) | OtherValue

  /** `chosen === correct`, where `chosen` is the picked option's index or
      `null` when nothing is picked. */
  predicate StrictEqualAsWritten(chosen: Option<int>, correct: AnswerField) {
    match chosen
    case None => correct.Null?
    case Some(k) => correct == Number(k)
  }

  /** The score the intended rule gives: a question counts only when an option
      was picked and it is the one `answer_index` names. */
  predicate Correct(chosen: Option<int>, correct: AnswerField) {
    chosen.Some? && correct == Number(chosen.value)
  }

  /** The number of questions the browser counts, one selection per question. */
  function ScoreAsWritten(answers: seq<AnswerField>, chosen: seq<Option<int>>): (n: nat)
    requires |chosen| == |answers|
    ensures n <= |answers|
    decreases |answers|
  {
    if answers == [] then 0
    else
      var k := |answers| - 1;
      ScoreAsWritten(answers[..k], chosen[..k]) + (if StrictEqualAsWritten(chosen[k], answers[k]) then 1 else 0)
  }

  function Answered(chosen: seq<Option<int>>): (n: nat)
    ensures n <= |chosen|
    decreases |chosen|
  {
    if chosen == [] then 0
    else Answered(chosen[..|chosen| - 1]) + (if chosen[|chosen| - 1].Some? then 1 else 0)
  }

  /** `gradeQuiz` with the comparison corrected: never more than the number of
      answered questions. */
  function Score(answers: seq<AnswerField>, chosen: seq<Option<int>>): (n: nat)
    requires |chosen| == |answers|
    ensures n <= Answered(chosen)
    decreases |answers|
  {
    if answers == [] then 0
    else
      var k := |answers| - 1;
      assert chosen[..k + 1] == chosen;
      Score(answers[..k], chosen[..k]) + (if Correct(chosen[k], answers[k]) then 1 else 0)
  }

  /** Full marks exactly when every question was answered correctly. */
  lemma {:induction false} FullMarks(answers: seq<AnswerField>, chosen: seq<Option<int>>)
    requires |chosen| == |answers|
    ensures Score(answers, chosen) == |answers| <==>
      forall i :: 0 <= i < |answers| ==> Correct(chosen[i], answers[i])
    decreases |answers|
  {
    if answers != [] {
      var k := |answers| - 1;
      FullMarks(answers[..k], chosen[..k]);
      ScoreAtMost(answers[..k], chosen[..k]);
      assert (forall i :: 0 <= i < k ==> Correct(chosen[..k][i], answers[..k][i])) <==>
             (forall i :: 0 <= i < k ==> Correct(chosen[i], answers[i]));
    }
  }

  lemma {:induction false} ScoreAtMost(answers: seq<AnswerField>, chosen: seq<Option<int>>)
    requires |chosen| == |answers|
    ensures Score(answers, chosen) <= |answers|
    decreases |answers|
  {
    if answers != [] {
      ScoreAtMost(answers[..|answers| - 1], chosen[..|answers| - 1]);
    }
  }

  /** The unanswered questions whose `answer_index` is `null`. */
  function NullUnanswered(answers: seq<AnswerField>, chosen: seq<Option<int>>): nat
    requires |chosen| == |answers|
    decreases |answers|
  {
    if answers == [] then 0
    else
      var k := |answers| - 1;
      NullUnanswered(answers[..k], chosen[..k]) + (if chosen[k].None? && answers[k].Null? then 1 else 0)
  }

  /** The browser's score is the intended score plus one point for each
      unanswered question whose `answer_index` is `null`. */
  lemma {:induction false} AsWrittenOvercounts(answers: seq<AnswerField>, chosen: seq<Option<int>>)
    requires |chosen| == |answers|
    ensures ScoreAsWritten(answers, chosen) == Score(answers, chosen) + NullUnanswered(answers, chosen)
    decreases |answers|
  {
    if answers != [] {
      var k := |answers| - 1;
      AsWrittenOvercounts(answers[..k], chosen[..k]);
    }
  }

  /** One question with `"answer_index": null`, left unanswered, scores 1 / 1. */
  lemma NullAnswerCountsUnanswered()
    ensures ScoreAsWritten([Null], [None]) == 1
    ensures Score([Null], [None]) == 0
  {
    var answers: seq<AnswerField>, chosen: seq<Option<int>> := [Null], [None];
    assert answers[..0] == [] && chosen[..0] == [];
  }
}

=== FILE: sorting.dfy ===
/** A stable sort, as Python's `sorted` and `list.sort` are, and the code-point
    order Python uses to compare strings.

    The sort is an insertion sort parametrised by `le(a, b)`, read "a may come
    before b". `list.sort(key=k, reverse=True)` is this sort with
    `le(a, b) == k(a) >= k(b)`: Python keeps equal keys in their original order
    even when reversing. */
module Sorting {

  ghost predicate Transitive<T(!new)>(le: (T, T) -> bool) {
    forall x, y, z :: le(x, y) && le(y, z) ==> le(x, z)
  }

  ghost predicate Total<T(!new)>(le: (T, T) -> bool) {
    forall x, y :: le(x, y) || le(y, x)
  }

  ghost predicate TotalPreorder<T(!new)>(le: (T, T) -> bool) {
    Transitive(le) && Total(le)
  }

  ghost predicate SortedBy<T>(s: seq<T>, le: (T, T) -> bool) {
    forall i, j :: 0 <= i < j < |s| ==> le(s[i], s[j])
  }

  /** Neither of `a` and `b` must come before the other. */
  predicate Tied<T>(le: (T, T) -> bool, a: T, b: T) {
    le(a, b) && le(b, a)
  }

  /** The elements of `s` tied with `e`, in their order in `s`. */
  function TiesWith<T>(s: seq<T>, le: (T, T) -> bool, e: T): seq<T>
    decreases |s|
  {
    if s == [] then []
    else (if Tied(le, s[0], e) then [s[0]] else []) + TiesWith(s[1..], le, e)
  }

  /** Places `x` in front of the first element it may precede. */
  function Insert<T>(x: T, s: seq<T>, le: (T, T) -> bool): (r: seq<T>)
    ensures multiset(r) == multiset(s) + multiset{x}
    decreases |s|
  {
    if s == [] || le(x, s[0]) then [x] + s
    else
      assert s == [s[0]] + s[1..];
      [s[0]] + Insert(x, s[1..], le)
  }

  function Sort<T>(s: seq<T>, le: (T, T) -> bool): (r: seq<T>)
    ensures multiset(r) == multiset(s)
    decreases |s|
  {
    if s == [] then []
    else
      assert s == [s[0]] + s[1..];
      Insert(s[0], Sort(s[1..], le), le)
  }

  lemma {:induction false} InsertSorted<T(!new)>(x: T, s: seq<T>, le: (T, T) -> bool)
    requires TotalPreorder(le)
    requires SortedBy(s, le)
    ensures SortedBy(Insert(x, s, le), le)
    decreases |s|
  {
    if s == [] || le(x, s[0]) {
      var r := [x] + s;
      forall i, j | 0 <= i < j < |r|
        ensures le(r[i], r[j])
      {
        if i == 0 && j > 1 {
          assert le(x, s[0]) && le(s[0], s[j - 1]);
        }
      }
    } else {
      var t := Insert(x, s[1..], le);
      InsertSorted(x, s[1..], le);
      assert le(s[0], x);
      HeadBelowRest(s, le);
      forall j | 0 <= j < |t|
        ensures le(s[0], t[j])
      {
        assert t[j] in multiset(t);
        assert t[j] == x || t[j] in multiset(s[1..]);
      }
      var r := [s[0]] + t;
      forall i, j | 0 <= i < j < |r|
        ensures le(r[i], r[j])
      {
        if i > 0 {
          assert r[i] == t[i - 1] && r[j] == t[j - 1];
        }
      }
    }
  }

  lemma HeadBelowRest<T>(s: seq<T>, le: (T, T) -> bool)
    requires s != [] && SortedBy(s, le)
    ensures forall y :: y in s[1..] ==> le(s[0], y)
  {
    forall y | y in s[1..] ensures le(s[0], y) {
      var k :| 0 <= k < |s[1..]| && s[1..][k] == y;
      assert s[k + 1] == y;
    }
  }

  /** The sort orders its result by `le`. */
  lemma {:induction false} SortSorted<T(!new)>(s: seq<T>, le: (T, T) -> bool)
    requires TotalPreorder(le)
    ensures SortedBy(Sort(s, le), le)
    decreases |s|
  {
    if s != [] {
      SortSorted(s[1..], le);
      InsertSorted(s[0], Sort(s[1..], le), le);
    }
  }

  lemma {:induction false} InsertStable<T(!new)>(x: T, s: seq<T>, le: (T, T) -> bool, e: T)
    requires Transitive(le)
    ensures TiesWith(Insert(x, s, le), le, e) == TiesWith([x] + s, le, e)
    decreases |s|
  {
    if s != [] && !le(x, s[0]) {
      var t := Insert(x, s[1..], le);
      InsertStable(x, s[1..], le, e);
      assert ([s[0]] + t)[1..] == t;
      assert ([x] + s[1..])[1..] == s[1..];
      assert ([x] + s)[1..] == s;
      // x would have to come before s[0] had both been tied with e
      assert !(Tied(le, x, e) && Tied(le, s[0], e));
    }
  }

  /** The sort is stable: each group of tied elements keeps its original order. */
  lemma {:induction false} SortStable<T(!new)>(s: seq<T>, le: (T, T) -> bool, e: T)
    requires Transitive(le)
    ensures TiesWith(Sort(s, le), le, e) == TiesWith(s, le, e)
    decreases |s|
  {
    if s != [] {
      var t := Sort(s[1..], le);
      SortStable(s[1..], le, e);
      InsertStable(s[0], t, le, e);
      assert ([s[0]] + t)[1..] == t;
    }
  }

  // ---------------------------------------------------------------------------
  // Python's string order: lexicographic by code point

  predicate StrLe(a: string, b: string)
    decreases |a|
  {
    a == [] || (b != [] && (a[0] < b[0] || (a[0] == b[0] && StrLe(a[1..], b[1..]))))
  }

  lemma {:induction false} StrLeTotal(a: string, b: string)
    ensures StrLe(a, b) || StrLe(b, a)
    decreases |a|
  {
    if a != [] && b != [] && a[0] == b[0] {
      StrLeTotal(a[1..], b[1..]);
    }
  }

  lemma {:induction false} StrLeTrans(a: string, b: string, c: string)
    requires StrLe(a, b) && StrLe(b, c)
    ensures StrLe(a, c)
    decreases |a|
  {
    if a != [] && a[0] == b[0] && b[0] == c[0] {
      StrLeTrans(a[1..], b[1..], c[1..]);
    }
  }

  lemma {:induction false} StrLeAntisymmetric(a: string, b: string)
    requires StrLe(a, b) && StrLe(b, a)
    ensures a == b
    decreases |a|
  {
    if a != [] {
      StrLeAntisymmetric(a[1..], b[1..]);
      assert a == [a[0]] + a[1..] && b == [b[0]] + b[1..];
    }
  }

  lemma StrLeTotalPreorder()
    ensures TotalPreorder(StrLe)
  {
    forall a, b ensures StrLe(a, b) || StrLe(b, a) {
      StrLeTotal(a, b);
    }
    forall a, b, c | StrLe(a, b) && StrLe(b, c) ensures StrLe(a, c) {
      StrLeTrans(a, b, c);
    }
  }
}

=== FILE: store.dfy ===
/** The bookkeeping layer of src/web_app.py. The JSON files under `data/` are
    one immutable state record: `users.json` (accounts by e-mail),
    `sessions.json` (login tokens), `chats_index.json` (the saved-chat list,
    an insertion-ordered object) and one `session_<id>.json` transcript per
    chat. `load_json` is a read of the record and `save_json` a write; a file
    that does not exist reads as `{}`. */
module Store {
  import opened Optional
  import opened Text
  import Dicts

  /** One stored turn. Every turn the app writes has both fields; `None`
      stands for a field missing from the file, which the readers default. */
  datatype Turn = Turn(role: Option<string>, content: Option<string>)

  /** One saved-chat entry; missing fields read as "Chat" and 0. */
  datatype ChatInfo = ChatInfo(title: Option<string>, createdAt: Option<int>)

  datatype Account = Account(name: string, salt: string, hash: string)

  datatype State = State(
    users: map<string, Account>,                  // e-mail -> account
    logins: map<string, string>,                  // token -> e-mail
    index: Dicts.Dict<string, ChatInfo>,          // session id -> entry, in insertion order
    files: map<string, seq<Turn>>)                // transcript file name -> history

  /** The chat index is a well-formed ordered object. */
  ghost predicate Valid(s: State) {
    Dicts.Valid(s.index)
  }

  /** A turn as the app writes it. */
  function Said(role: string, content: string): Turn {
    Turn(Some(role), Some(content))
  }

  /** Python's `x or d` on an optional string field: the value when it is
      present and non-empty, otherwise `d`. */
  function OrElse(x: Option<string>, d: string): (r: string)
    ensures x.Some? && x.value != [] ==> r == x.value
    ensures !(x.Some? && x.value != []) ==> r == d
  {
    if x.Some? && x.value != [] then x.value else d
  }

  /** Python's truth value of an optional string. */
  predicate Truthy(x: Option<string>) {
    x.Some? && x.value != []
  }

  // ---------------------------------------------------------------------------
  // Transcript files

  const UsersFile := "users.json"
  const SessionsFile := "sessions.json"
  const IndexFile := "chats_index.json"

  function SafeId(sid: string): string {
    ReplaceChar(sid, '/', '_')
  }

  /** `meta_file`: the transcript file of a session. The name holds no "/",
      and it never names one of the three shared files. */
  function MetaFile(sid: string): (f: string)
    ensures '/' !in f
    ensures f != UsersFile && f != SessionsFile && f != IndexFile
  {
    ReplaceCharRemoves(sid, '/', '_');
    var f := "session_" + SafeId(sid) + ".json";
    assert f[0] == 's' && f[7] == '_';
    assert forall i :: 0 <= i < |f| && f[i] == '/' ==> false by {
      forall i | 0 <= i < |f| ensures f[i] != '/' {
        if 8 <= i < 8 + |SafeId(sid)| {
          assert f[i] == SafeId(sid)[i - 8];
        }
      }
    }
    f
  }

  /** Two session ids share a transcript exactly when they agree after "/" is
      replaced by "_". */
  lemma MetaFileShared(a: string, b: string)
    ensures MetaFile(a) == MetaFile(b) <==> SafeId(a) == SafeId(b)
  {
    if MetaFile(a) == MetaFile(b) {
      var fa, fb := MetaFile(a), MetaFile(b);
      assert |SafeId(a)| == |SafeId(b)|;
      forall i | 0 <= i < |SafeId(a)| ensures SafeId(a)[i] == SafeId(b)[i] {
        assert fa[8 + i] == SafeId(a)[i] && fb[8 + i] == SafeId(b)[i];
      }
    }
  }

  /** Distinct ids can collide: "a/b" and "a_b" name one file. */
  lemma MetaFileCollision()
    ensures "a/b" != "a_b" && MetaFile("a/b") == MetaFile("a_b")
  {
    assert "a/b"[1] != "a_b"[1];
    assert SafeId("a/b") == SafeId("a_b") by {
      assert SafeId("a/b")[1] == '_';
      assert SafeId("a_b")[1] == '_';
    }
  }

  /** Ids without "/" have transcripts of their own. */
  lemma MetaFileInjective(a: string, b: string)
    requires '/' !in a && '/' !in b && a != b
    ensures MetaFile(a) != MetaFile(b)
  {
    assert SafeId(a) == a by {
      forall i | 0 <= i < |a| ensures SafeId(a)[i] == a[i] {
        assert a[i] in a;
      }
    }
    assert SafeId(b) == b by {
      forall i | 0 <= i < |b| ensures SafeId(b)[i] == b[i] {
        assert b[i] in b;
      }
    }
    MetaFileShared(a, b);
  }

  /** `get_history`: the stored history, or `[]` when the file is absent. */
  function GetHistory(s: State, sid: string): (h: seq<Turn>)
    ensures MetaFile(sid) !in s.files ==> h == []
    ensures MetaFile(sid) in s.files ==> h == s.files[MetaFile(sid)]
  {
    var f := MetaFile(sid);
    if f in s.files then s.files[f] else []
  }

  /** Every transcript other than the one of `sid` is as it was. */
  ghost predicate OthersKept(s: State, t: State, sid: string) {
    forall other :: MetaFile(other) != MetaFile(sid) ==> GetHistory(t, other) == GetHistory(s, other)
  }

  /** `append_history`: the session's history grows by one turn at the end;
      every transcript under another file name, and everything else in the
      state, is left alone. */
  function AppendHistory(s: State, sid: string, role: string, content: string): (r: State)
    ensures forall other :: MetaFile(other) == MetaFile(sid) ==>
                              GetHistory(r, other) == GetHistory(s, sid) + [Said(role, content)]
    ensures OthersKept(s, r, sid)
    ensures r.users == s.users && r.logins == s.logins && r.index == s.index
  {
    s.(files := s.files[MetaFile(sid) := GetHistory(s, sid) + [Said(role, content)]])
  }

  // ---------------------------------------------------------------------------
  // Chat index

  /** The title of a new chat: the first 60 characters of the stripped first
      message, or "New chat" when nothing is left. */
  function ChatTitle(first: string): (t: string)
    ensures Strip(first) == [] ==> t == "New chat"
    ensures Strip(first) != [] ==> t <= Strip(first) && |t| == if |Strip(first)| < 60 then |Strip(first)| else 60
  {
    var t := Take(Strip(first), 60);
    if t == [] then "New chat" else t
  }

  /** `ensure_chat_index`: an existing entry is never touched; a new session
      gets an entry at the end of the index, stamped with `now`. */
  function EnsureChatIndex(s: State, sid: string, first: string, now: int): (r: State)
    requires Valid(s)
    ensures Valid(r)
    ensures r.users == s.users && r.logins == s.logins && r.files == s.files
    ensures sid in s.index.entries ==> r.index == s.index
    ensures sid !in s.index.entries ==>
      && r.index.keys == s.index.keys + [sid]
      && r.index.entries == s.index.entries[sid := ChatInfo(Some(ChatTitle(first)), Some(now))]
  {
    if sid in s.index.entries then s
    else s.(index := Dicts.Put(s.index, sid, ChatInfo(Some(ChatTitle(first)), Some(now))))
  }

  // ---------------------------------------------------------------------------
  // Accounts and login tokens

  /** The `(ok, message)` pair the account helpers return. */
  datatype Verdict = Verdict(ok: bool, message: string)

  /** `create_user`, with the fresh salt and sha256 (as a hex digest) given. */
  function CreateUser(s: State, name: string, email: string, password: string,
                      salt: string, sha: string -> string): (r: (State, Verdict))
    ensures email in s.users ==> r == (s, Verdict(false, "User already exists"))
    ensures email !in s.users ==>
      && r.1 == Verdict(true, "Account created")
      && r.0 == s.(users := s.users[email := Account(name, salt, sha(salt + password))])
  {
    if email in s.users then (s, Verdict(false, "User already exists"))
    else (s.(users := s.users[email := Account(name, salt, sha(salt + password))]),
          Verdict(true, "Account created"))
  }

  /** `verify_user`: an absent e-mail (or none at all) is "User not found"; the
      password is salted with the stored salt and compared with the stored
      hash; on success the message is the account's name. */
  function VerifyUser(users: map<string, Account>, email: Option<string>, password: string,
                      sha: string -> string): (v: Verdict)
    ensures !(email.Some? && email.value in users) ==> v == Verdict(false, "User not found")
    ensures email.Some? && email.value in users ==>
      var a := users[email.value];
      v == if sha(a.salt + password) == a.hash then Verdict(true, a.name)
           else Verdict(false, "Incorrect password")
  {
    if email.None? || email.value !in users then Verdict(false, "User not found")
    else
      var a := users[email.value];
      if sha(a.salt + password) == a.hash then Verdict(true, a.name)
      else Verdict(false, "Incorrect password")
  }

  /** A freshly created account accepts the password it was created with. */
  lemma RegisterThenVerify(s: State, name: string, email: string, password: string,
                           salt: string, sha: string -> string)
    requires email !in s.users
    ensures var r := CreateUser(s, name, email, password, salt, sha);
      r.1.ok && VerifyUser(r.0.users, Some(email), password, sha) == Verdict(true, name)
  {
  }

  /** With a collision-free hash, any other password is refused. */
  lemma {:induction false} WrongPasswordRefused(s: State, name: string, email: string,
                           password: string, other: string, salt: string, sha: string -> string)
    requires email !in s.users && other != password
    requires forall x, y :: sha(x) == sha(y) ==> x == y
    ensures var r := CreateUser(s, name, email, password, salt, sha);
      VerifyUser(r.0.users, Some(email), other, sha) == Verdict(false, "Incorrect password")
  {
    assert (salt + other)[|salt|..] == other && (salt + password)[|salt|..] == password;
  }

  /** `create_session`: the token, chosen by the caller, now names `email`. */
  function CreateSession(s: State, email: string, token: string): (r: State)
    ensures r.logins == s.logins[token := email] && token in r.logins
    ensures r.users == s.users && r.index == s.index && r.files == s.files
  {
    s.(logins := s.logins[token := email])
  }

  /** `delete_session`: a missing or empty token changes nothing; otherwise the
      token is forgotten (if it was known). */
  function DeleteSession(s: State, token: Option<string>): (r: State)
    ensures !Truthy(token) ==> r == s
    ensures Truthy(token) ==> r.logins == s.logins - {token.value} && token.value !in r.logins
    ensures r.users == s.users && r.index == s.index && r.files == s.files
  {
    if !Truthy(token) then s
    else if token.value in s.logins then s.(logins := s.logins - {token.value})
    else s
  }

  /** What `/api/whoami` reports. */
  datatype Identity = Anonymous | LoggedIn(email: string, name: string)

  /** `api_whoami`: a known, non-empty token is logged in as its e-mail, with
      the account's name or "" when the account is gone. */
  function WhoAmI(s: State, token: Option<string>): (r: Identity)
    ensures r.LoggedIn? <==> Truthy(token) && token.value in s.logins
    ensures r.LoggedIn? ==> r.email == s.logins[token.value]
    ensures r.LoggedIn? ==> r.name == if r.email in s.users then s.users[r.email].name else ""
  {
    if !Truthy(token) || token.value !in s.logins then Anonymous
    else
      var email := s.logins[token.value];
      LoggedIn(email, if email in s.users then s.users[email].name else "")
  }

  /** A new token identifies its user until it is deleted. */
  lemma SessionLifecycle(s: State, email: string, token: string)
    requires token != []
    ensures WhoAmI(CreateSession(s, email, token), Some(token)).LoggedIn?
    ensures WhoAmI(CreateSession(s, email, token), Some(token)).email == email
    ensures WhoAmI(DeleteSession(CreateSession(s, email, token), Some(token)), Some(token)) == Anonymous
  {
  }
}

=== FILE: text.dfy ===
/** The handful of Python `str` operations the web app and the tip tool rely on:
    `isspace`, `strip`, `lower`, `in`, `split()`, `split(sep)`, `join` and `str(n)`.
    Strings are sequences of Unicode code points, as Python's are. */
module Text {

  /** Python's `str.isspace`: the ASCII whitespace and separator controls
      (TAB to CR, FS to US, SPACE) and the Unicode spaces. */
  predicate IsSpace(c: char) {
    || ('\t' <= c <= '\r')
    || ('\U{1C}' <= c <= '\U{1F}')
    || c == ' '
    || c == '\U{85}' || c == '\U{A0}' || c == '\U{1680}'
    || ('\U{2000}' <= c <= '\U{200A}')
    || c == '\U{2028}' || c == '\U{2029}' || c == '\U{202F}' || c == '\U{205F}'
    || c == '\U{3000}'
  }

  predicate AllSpace(s: string) {
    forall i :: 0 <= i < |s| ==> IsSpace(s[i])
  }

  /** A word as `str.split()` produces it: non-empty, no whitespace. */
  predicate IsWord(w: string) {
    w != [] && forall i :: 0 <= i < |w| ==> !IsSpace(w[i])
  }

  // ---------------------------------------------------------------------------
  // strip

  /** Drops the longest prefix whose characters all satisfy `p`. */
  function TrimStart(s: string, p: char -> bool): (r: string)
    ensures |r| <= |s| && r == s[|s| - |r|..]
    ensures forall i :: 0 <= i < |s| - |r| ==> p(s[i])
    ensures r == [] || !p(r[0])
    decreases |s|
  {
    if s == [] || !p(s[0]) then s else TrimStart(s[1..], p)
  }

  /** Drops the longest suffix whose characters all satisfy `p`. */
  function TrimEnd(s: string, p: char -> bool): (r: string)
    ensures |r| <= |s| && r == s[..|r|]
    ensures forall i :: |r| <= i < |s| ==> p(s[i])
    ensures r == [] || !p(r[|r| - 1])
    decreases |s|
  {
    if s == [] || !p(s[|s| - 1]) then s else TrimEnd(s[..|s| - 1], p)
  }

  /** Python's `s.strip(chars)` with the character class given as `p`. */
  function Trim(s: string, p: char -> bool): string {
    TrimEnd(TrimStart(s, p), p)
  }

  /** Python's argument-less `s.strip()`. */
  function Strip(s: string): string {
    Trim(s, IsSpace)
  }

  lemma {:induction false} TrimStartSkip(a: string, b: string, p: char -> bool)
    requires forall i :: 0 <= i < |a| ==> p(a[i])
    ensures TrimStart(a + b, p) == TrimStart(b, p)
    decreases |a|
  {
    if a != [] {
      DropConcat(a, b, 1);
      TrimStartSkip(a[1..], b, p);
    } else {
      assert a + b == b;
    }
  }

  lemma {:induction false} TrimEndSkip(a: string, b: string, p: char -> bool)
    requires forall i :: 0 <= i < |b| ==> p(b[i])
    ensures TrimEnd(a + b, p) == TrimEnd(a, p)
    decreases |b|
  {
    if b != [] {
      DropLastConcat(a, b);
      TrimEndSkip(a, b[..|b| - 1], p);
    } else {
      assert a + b == a;
    }
  }

  /** Trailing text survives trimming the front once the front has stopped. */
  lemma {:induction false} TrimStartAppend(a: string, b: string, p: char -> bool)
    requires TrimStart(a, p) != []
    ensures TrimStart(a + b, p) == TrimStart(a, p) + b
    decreases |a|
  {
    assert (a + b)[0] == a[0];
    if p(a[0]) {
      DropConcat(a, b, 1);
      TrimStartAppend(a[1..], b, p);
    }
  }

  /** A string with no whitespace at either end is its own `strip()`. */
  lemma StripClean(s: string)
    requires s == [] || (!IsSpace(s[0]) && !IsSpace(s[|s| - 1]))
    ensures Strip(s) == s
  {
  }

  /** `strip()` leaves nothing to strip: it is idempotent. */
  lemma StripIdempotent(s: string)
    ensures Strip(Strip(s)) == Strip(s)
  {
    StripClean(Strip(s));
  }

  /** Whitespace around a string does not change its `strip()`. */
  lemma {:induction false} StripPadded(w1: string, t: string, w2: string)
    requires AllSpace(w1) && AllSpace(w2)
    ensures Strip(w1 + t + w2) == Strip(t)
  {
    assert w1 + t + w2 == w1 + (t + w2);
    TrimStartSkip(w1, t + w2, IsSpace);
    if TrimStart(t, IsSpace) == [] {
      var k := |t|;
      assert forall i :: 0 <= i < |t| ==> IsSpace(t[i]);
      assert AllSpace(t + w2) by {
        forall i | 0 <= i < |t + w2| ensures IsSpace((t + w2)[i]) {
          if i < |t| { assert (t + w2)[i] == t[i]; } else { assert (t + w2)[i] == w2[i - |t|]; }
        }
      }
      TrimStartSkip(t + w2, [], IsSpace);
      assert t + w2 + [] == t + w2;
    } else {
      TrimStartAppend(t, w2, IsSpace);
      TrimEndSkip(TrimStart(t, IsSpace), w2, IsSpace);
    }
  }

  // ---------------------------------------------------------------------------
  // lower (ASCII letters only)

  function LowerChar(c: char): char {
    if 'A' <= c <= 'Z' then (c as int + 32) as char else c
  }

  function Lower(s: string): (r: string)
    ensures |r| == |s|
    ensures forall i :: 0 <= i < |s| ==> r[i] == LowerChar(s[i])
  {
    seq(|s|, i requires 0 <= i < |s| => LowerChar(s[i]))
  }

  function UpperChar(c: char): char {
    if 'a' <= c <= 'z' then (c as int - 32) as char else c
  }

  /** Python's `s.capitalize()`: the first character upper-cased, the rest
      lower-cased. */
  function Capitalize(s: string): string {
    if s == [] then [] else [UpperChar(s[0])] + Lower(s[1..])
  }

  /** Lower-casing never turns whitespace into non-whitespace or back. */
  lemma LowerCharSpace(c: char)
    ensures IsSpace(LowerChar(c)) == IsSpace(c)
  {
    if 'A' <= c <= 'Z' {
      assert 'a' <= LowerChar(c) <= 'z';
    }
  }

  lemma LowerIdempotent(s: string)
    ensures Lower(Lower(s)) == Lower(s)
  {
  }

  lemma LowerConcat(a: string, b: string)
    ensures Lower(a + b) == Lower(a) + Lower(b)
  {
  }

  /** Trimming the front commutes with lower-casing for any character class
      that lower-casing preserves. */
  lemma {:induction false} LowerTrimStart(s: string, p: char -> bool)
    requires forall c :: p(LowerChar(c)) == p(c)
    ensures TrimStart(Lower(s), p) == Lower(TrimStart(s, p))
    decreases |s|
  {
    if s != [] {
      var l := Lower(s);
      assert l[0] == LowerChar(s[0]);
      if p(s[0]) {
        assert l[1..] == Lower(s[1..]);
        LowerTrimStart(s[1..], p);
      }
    }
  }

  lemma {:induction false} LowerTrimEnd(s: string, p: char -> bool)
    requires forall c :: p(LowerChar(c)) == p(c)
    ensures TrimEnd(Lower(s), p) == Lower(TrimEnd(s, p))
    decreases |s|
  {
    if s != [] {
      var l := Lower(s);
      assert l[|s| - 1] == LowerChar(s[|s| - 1]);
      if p(s[|s| - 1]) {
        assert l[..|s| - 1] == Lower(s[..|s| - 1]);
        LowerTrimEnd(s[..|s| - 1], p);
      }
    }
  }

  lemma LowerStrip(s: string)
    ensures Strip(Lower(s)) == Lower(Strip(s))
  {
    forall c ensures IsSpace(LowerChar(c)) == IsSpace(c) {
      LowerCharSpace(c);
    }
    LowerTrimStart(s, IsSpace);
    LowerTrimEnd(TrimStart(s, IsSpace), IsSpace);
  }

  // ---------------------------------------------------------------------------
  // substring test (`needle in hay`)

  predicate OccursAt(hay: string, needle: string, i: int) {
    0 <= i && i + |needle| <= |hay| && hay[i..i + |needle|] == needle
  }

  /** Python's `needle in hay`, scanning from the front. */
  predicate Contains(hay: string, needle: string)
    decreases |hay|
  {
    needle <= hay || (hay != [] && Contains(hay[1..], needle))
  }

  /** The scan agrees with the positional definition of a substring. */
  lemma {:induction false} ContainsIffOccurs(hay: string, needle: string)
    ensures Contains(hay, needle) <==> exists i :: OccursAt(hay, needle, i)
    decreases |hay|
  {
    if needle <= hay {
      assert OccursAt(hay, needle, 0);
    } else if hay != [] {
      ContainsIffOccurs(hay[1..], needle);
      assert !OccursAt(hay, needle, 0);
      if Contains(hay[1..], needle) {
        var i :| OccursAt(hay[1..], needle, i);
        OccursShift(hay, needle, i);
      }
      forall i | OccursAt(hay, needle, i)
        ensures OccursAt(hay[1..], needle, i - 1)
      {
        OccursShift(hay, needle, i - 1);
      }
    }
  }

  /** An occurrence in the tail is one position further on in the whole. */
  lemma OccursShift(hay: string, needle: string, i: int)
    requires hay != [] && 0 <= i
    ensures OccursAt(hay[1..], needle, i) <==> OccursAt(hay, needle, i + 1)
  {
    if i + 1 + |needle| <= |hay| {
      assert hay[1..][i..i + |needle|] == hay[i + 1..i + 1 + |needle|];
    }
  }

  /** No string holds a longer one. */
  lemma {:induction false} ContainsLonger(hay: string, needle: string)
    requires |hay| < |needle|
    ensures !Contains(hay, needle)
    decreases |hay|
  {
    if hay != [] {
      ContainsLonger(hay[1..], needle);
    }
  }

  /** The empty string is in every string. */
  lemma ContainsEmpty(hay: string)
    ensures Contains(hay, "")
  {
  }

  // ---------------------------------------------------------------------------
  // split() and join

  /** The longest whitespace-free prefix of `s`. */
  function Word(s: string): (w: string)
    ensures |w| <= |s| && w == s[..|w|]
    ensures forall i :: 0 <= i < |w| ==> !IsSpace(w[i])
    ensures |w| == |s| || IsSpace(s[|w|])
    decreases |s|
  {
    if s == [] || IsSpace(s[0]) then [] else [s[0]] + Word(s[1..])
  }

  /** Python's argument-less `s.split()`: the maximal runs of non-whitespace. */
  function Split(s: string): (r: seq<string>)
    ensures forall i :: 0 <= i < |r| ==> IsWord(r[i])
    decreases |s|
  {
    if s == [] then []
    else if IsSpace(s[0]) then Split(s[1..])
    else
      var w := Word(s);
      [w] + Split(s[|w|..])
  }

  /** Python's `sep.join(xs)`. */
  function Join(sep: string, xs: seq<string>): string
    decreases |xs|
  {
    if |xs| == 0 then ""
    else if |xs| == 1 then xs[0]
    else Join(sep, xs[..|xs| - 1]) + sep + xs[|xs| - 1]
  }

  /** `split()` finds no word exactly in whitespace-only text. */
  lemma {:induction false} SplitEmptyIffAllSpace(s: string)
    ensures Split(s) == [] <==> AllSpace(s)
    decreases |s|
  {
    if s != [] && IsSpace(s[0]) {
      SplitEmptyIffAllSpace(s[1..]);
      if AllSpace(s[1..]) {
        assert forall i :: 1 <= i < |s| ==> s[i] == s[1..][i - 1];
      }
    }
  }

  lemma {:induction false} WordOfWord(s: string)
    requires forall i :: 0 <= i < |s| ==> !IsSpace(s[i])
    ensures Word(s) == s
    decreases |s|
  {
    if s != [] {
      WordOfWord(s[1..]);
    }
  }

  /** A word that ends at a whitespace boundary is unaffected by what follows. */
  lemma {:induction false} WordOfConcat(a: string, b: string)
    requires a != []
    requires IsSpace(a[|a| - 1]) || b == [] || IsSpace(b[0])
    ensures Word(a + b) == Word(a)
    decreases |a|
  {
    assert (a + b)[0] == a[0];
    if !IsSpace(a[0]) {
      DropConcat(a, b, 1);
      if a[1..] == [] {
        assert a[1..] + b == b;
      } else {
        WordOfConcat(a[1..], b);
      }
    }
  }

  /** `split()` distributes over a concatenation that meets at whitespace. */
  lemma {:induction false} SplitConcat(a: string, b: string)
    requires a == [] || b == [] || IsSpace(a[|a| - 1]) || IsSpace(b[0])
    ensures Split(a + b) == Split(a) + Split(b)
    decreases |a|, 1
  {
    if a == [] {
      assert a + b == b;
    } else if b == [] {
      assert a + b == a;
    } else if IsSpace(a[0]) {
      SplitConcatAtSpace(a, b);
    } else {
      SplitConcatAtWord(a, b);
    }
  }

  lemma {:induction false} SplitConcatAtSpace(a: string, b: string)
    requires a != [] && IsSpace(a[0])
    requires IsSpace(a[|a| - 1]) || b == [] || IsSpace(b[0])
    ensures Split(a + b) == Split(a) + Split(b)
    decreases |a|, 0
  {
    assert (a + b)[0] == a[0];
    assert Split(a + b) == Split((a + b)[1..]);
    DropConcat(a, b, 1);
    SplitConcat(a[1..], b);
  }

  lemma {:induction false} SplitConcatAtWord(a: string, b: string)
    requires a != [] && !IsSpace(a[0])
    requires IsSpace(a[|a| - 1]) || b == [] || IsSpace(b[0])
    ensures Split(a + b) == Split(a) + Split(b)
    decreases |a|, 0
  {
    var w := Word(a);
    assert Word(a + b) == w by { WordOfConcat(a, b); }
    assert (a + b)[0] == a[0];
    assert Split(a + b) == [w] + Split((a + b)[|w|..]);
    DropConcat(a, b, |w|);
    SplitConcat(a[|w|..], b);
    Assoc([w], Split(a[|w|..]), Split(b));
  }

  /** A single word splits to itself. */
  lemma SplitWord(w: string)
    requires IsWord(w)
    ensures Split(w) == [w]
  {
    WordOfWord(w);
    assert w[|w|..] == [];
  }

  /** Appending a space and a word adds exactly that word to `split()`. */
  lemma SplitSnocWord(c: string, w: string)
    requires IsWord(w)
    ensures Split(c + " " + w) == Split(c) + [w]
  {
    SplitConcat(c, " ");
    assert Split(" ") == [];
    assert c + " " + [] == c + " ";
    SplitConcat(c + " ", w);
    SplitWord(w);
  }

  /** Joining words with single spaces and splitting again gives the words back. */
  lemma {:induction false} SplitJoin(ws: seq<string>)
    requires forall i :: 0 <= i < |ws| ==> IsWord(ws[i])
    ensures Split(Join(" ", ws)) == ws
    decreases |ws|
  {
    if |ws| == 1 {
      SplitWord(ws[0]);
    } else if |ws| > 1 {
      var init := ws[..|ws| - 1];
      SplitJoin(init);
      SplitSnocWord(Join(" ", init), ws[|ws| - 1]);
      assert init + [ws[|ws| - 1]] == ws;
    }
  }

  // ---------------------------------------------------------------------------
  // split(sep) for a one-character separator

  /** Python's `s.split(c)`: always at least one piece, none holding `c`. */
  function SplitOn(s: string, c: char): (r: seq<string>)
    ensures |r| >= 1
    ensures forall i :: 0 <= i < |r| ==> c !in r[i]
    decreases |s|
  {
    if s == [] then [""]
    else
      var rest := SplitOn(s[1..], c);
      if s[0] == c then [""] + rest else [[s[0]] + rest[0]] + rest[1..]
  }

  lemma {:induction false} SplitOnNoSep(s: string, c: char)
    requires c !in s
    ensures SplitOn(s, c) == [s]
    decreases |s|
  {
    if s != [] {
      assert c !in s[1..];
      SplitOnNoSep(s[1..], c);
      assert [s[0]] + s[1..] == s;
    }
  }

  /** Cutting at one occurrence of the separator cuts the pieces in two. */
  lemma {:induction false} SplitOnConcat(a: string, c: char, b: string)
    ensures SplitOn(a + [c] + b, c) == SplitOn(a, c) + SplitOn(b, c)
    decreases |a|
  {
    if a == [] {
      assert a + [c] + b == [c] + b;
      assert ([c] + b)[1..] == b;
    } else {
      assert (a + [c] + b)[0] == a[0];
      assert (a + [c] + b)[1..] == a[1..] + [c] + b;
      SplitOnConcat(a[1..], c, b);
    }
  }

  /** `s.split(c)` undoes `c.join(xs)` when no piece holds the separator. */
  lemma {:induction false} SplitOnJoin(xs: seq<string>, c: char)
    requires |xs| >= 1
    requires forall i :: 0 <= i < |xs| ==> c !in xs[i]
    ensures SplitOn(Join([c], xs), c) == xs
    decreases |xs|
  {
    if |xs| == 1 {
      SplitOnNoSep(xs[0], c);
    } else {
      var init := xs[..|xs| - 1];
      SplitOnJoin(init, c);
      SplitOnConcat(Join([c], init), c, xs[|xs| - 1]);
      SplitOnNoSep(xs[|xs| - 1], c);
      assert init + [xs[|xs| - 1]] == xs;
    }
  }

  // ---------------------------------------------------------------------------
  // str(n) for natural numbers

  predicate IsDigit(c: char) {
    '0' <= c <= '9'
  }

  function DigitChar(d: nat): (c: char)
    requires d < 10
    ensures IsDigit(c) && c as int - '0' as int == d
  {
    (d + '0' as int) as char
  }

  /** Python's `str(n)` for `n >= 0`: decimal digits, no leading zero. */
  function NatToString(n: nat): (r: string)
    ensures |r| >= 1
    ensures forall i :: 0 <= i < |r| ==> IsDigit(r[i])
    ensures |r| > 1 ==> r[0] != '0'
    decreases n
  {
    if n < 10 then [DigitChar(n)] else NatToString(n / 10) + [DigitChar(n % 10)]
  }

  /** The number a string of decimal digits denotes. */
  function DigitsValue(s: string): nat
    requires forall i :: 0 <= i < |s| ==> IsDigit(s[i])
    decreases |s|
  {
    if s == [] then 0
    else
      assert IsDigit(s[|s| - 1]);
      DigitsValue(s[..|s| - 1]) * 10 + (s[|s| - 1] as int - '0' as int)
  }

  /** Reading the decimal digits back gives the number. */
  lemma {:induction false} NatToStringRoundTrip(n: nat)
    ensures DigitsValue(NatToString(n)) == n
    decreases n
  {
    if n >= 10 {
      NatToStringRoundTrip(n / 10);
      var r := NatToString(n);
      assert r[..|r| - 1] == NatToString(n / 10);
    }
  }

  /** Different numbers print differently. */
  lemma NatToStringInjective(m: nat, n: nat)
    requires NatToString(m) == NatToString(n)
    ensures m == n
  {
    NatToStringRoundTrip(m);
    NatToStringRoundTrip(n);
  }

  // ---------------------------------------------------------------------------
  // slicing and replace

  /** Python's `s[:n]`. */
  function Take(s: string, n: nat): (r: string)
    ensures r <= s
    ensures |r| == if |s| <= n then |s| else n
  {
    if |s| <= n then s else s[..n]
  }

  /** Python's `s.replace(a, b)` for one-character `a` and `b`. */
  function ReplaceChar(s: string, a: char, b: char): (r: string)
    ensures |r| == |s|
    ensures forall i :: 0 <= i < |s| ==> r[i] == if s[i] == a then b else s[i]
  {
    seq(|s|, i requires 0 <= i < |s| => if s[i] == a then b else s[i])
  }

  /** After replacing `a` by something else, no `a` is left. */
  lemma ReplaceCharRemoves(s: string, a: char, b: char)
    requires a != b
    ensures a !in ReplaceChar(s, a, b)
  {
    var r := ReplaceChar(s, a, b);
    forall i | 0 <= i < |r|
      ensures r[i] != a
    {
    }
  }

  // ---------------------------------------------------------------------------
  // Sequence facts, stated generically so that no string function is unfolded

  lemma Assoc<T>(a: seq<T>, b: seq<T>, c: seq<T>)
    ensures a + b + c == a + (b + c)
  {
  }

  lemma PrefixConcat<T>(a: seq<T>, b: seq<T>)
    ensures a <= a + b
  {
    assert (a + b)[..|a|] == a;
  }

  lemma DropConcat<T>(a: seq<T>, b: seq<T>, k: nat)
    requires k <= |a|
    ensures (a + b)[k..] == a[k..] + b
  {
  }

  lemma DropLastConcat<T>(a: seq<T>, b: seq<T>)
    requires b != []
    ensures (a + b)[..|a + b| - 1] == a + b[..|b| - 1]
  {
  }

  lemma SnocLast<T>(s: seq<T>)
    requires s != []
    ensures s == s[..|s| - 1] + [s[|s| - 1]]
  {
  }

  lemma SnocPrefix<T>(s: seq<T>, x: T)
    ensures (s + [x])[..|s|] == s && (s + [x])[|s|] == x
  {
  }
}

=== FILE: tips.dfy ===
/** The offline tip tool of src/tools.py: a total function of what is found at
    the tip file's path and of the topic the planner asks about. */
module Tips {
  import opened Text
  import Sorting
  import Dicts

  /** What opening and parsing the tip file gives. */
  datatype TipSource =
    | NoFile                                      // the path does not exist
    | Unreadable(reason: string)                  // opening or JSON parsing raised; `str(e)`
    | Table(tips: Dicts.Dict<string, seq<string>>) // the parsed JSON object, keys in file order

  const NoDatabase := "No local tips database found."
  const ReadErrorPrefix := "Error reading local tips: "

  /** The table key looked up for a topic: trimmed, then lower-cased. */
  function TopicKey(topic: string): (k: string)
    ensures |k| <= |topic|
    ensures k == [] || (!IsSpace(k[0]) && !IsSpace(k[|k| - 1]))
    ensures forall i :: 0 <= i < |k| ==> !('A' <= k[i] <= 'Z')
  {
    var t := Strip(topic);
    assert t != [] ==> IsSpace(LowerChar(t[0])) == IsSpace(t[0])
                       && IsSpace(LowerChar(t[|t| - 1])) == IsSpace(t[|t| - 1]) by {
      if t != [] {
        LowerCharSpace(t[0]);
        LowerCharSpace(t[|t| - 1]);
      }
    }
    Lower(t)
  }

  /** The table's keys in ascending code-point order, as `sorted(data.keys())`. */
  function SortedTopics(d: Dicts.Dict<string, seq<string>>): seq<string> {
    Sorting.Sort(d.keys, Sorting.StrLe)
  }

  /** One "- t" line per tip, in stored order. */
  function Bullets(tips: seq<string>): (r: seq<string>)
    ensures |r| == |tips|
    ensures forall i :: 0 <= i < |r| ==> r[i] == "- " + tips[i]
  {
    seq(|tips|, i requires 0 <= i < |tips| => "- " + tips[i])
  }

  function MissPrefix(topic: string): string {
    "Sorry, I don't have local tips for '" + topic + "'. Available topics: "
  }

  function HitHeader(topic: string): string {
    "Practical local tips for **" + topic + "**:"
  }

  function GetLocalTip(src: TipSource, topic: string): (r: string)
    ensures src.NoFile? ==> r == NoDatabase
    ensures src.Unreadable? ==> ReadErrorPrefix <= r && r[|ReadErrorPrefix|..] == src.reason
    ensures src.Table? ==> (TopicKey(topic) in src.tips.entries <==> HitHeader(topic) + "\n" <= r)
  {
    match src
    case NoFile => NoDatabase
    case Unreadable(reason) => ReadErrorPrefix + reason
    case Table(d) =>
      var key := TopicKey(topic);
      if key !in d.entries then
        var r := MissPrefix(topic) + Join(", ", SortedTopics(d));
        assert r[0] == 'S' && (HitHeader(topic) + "\n")[0] == 'P';
        r
      else
        HitHeader(topic) + "\n" + Join("\n", Bullets(d.entries[key]))
  }

  /** The lookup key ignores surrounding whitespace and letter case, and
      normalising twice changes nothing. */
  lemma TopicKeyNormalises(w1: string, topic: string, w2: string)
    requires AllSpace(w1) && AllSpace(w2)
    ensures TopicKey(w1 + topic + w2) == TopicKey(topic)
    ensures TopicKey(Lower(topic)) == TopicKey(topic)
    ensures TopicKey(TopicKey(topic)) == TopicKey(topic)
  {
    StripPadded(w1, topic, w2);
    LowerStrip(topic);
    LowerIdempotent(Strip(topic));
    LowerStrip(Strip(topic));
    StripIdempotent(topic);
  }

  /** Topics with the same key get the same answer apart from the echoed
      topic: the header carries the topic as given, not its key. */
  lemma SameKeySameAnswer(src: TipSource, a: string, b: string)
    requires src.Table? && TopicKey(a) == TopicKey(b)
    ensures TopicKey(a) in src.tips.entries ==>
      GetLocalTip(src, a)[|HitHeader(a)|..] == GetLocalTip(src, b)[|HitHeader(b)|..]
    ensures TopicKey(a) !in src.tips.entries ==>
      GetLocalTip(src, a)[|MissPrefix(a)|..] == GetLocalTip(src, b)[|MissPrefix(b)|..]
  {
    var d := src.tips;
    var k := TopicKey(a);
    if k in d.entries {
      var tail := "\n" + Join("\n", Bullets(d.entries[k]));
      assert GetLocalTip(src, a) == HitHeader(a) + tail by { Assoc(HitHeader(a), "\n", Join("\n", Bullets(d.entries[k]))); }
      assert GetLocalTip(src, b) == HitHeader(b) + tail by { Assoc(HitHeader(b), "\n", Join("\n", Bullets(d.entries[k]))); }
      DropConcat(HitHeader(a), tail, |HitHeader(a)|);
      DropConcat(HitHeader(b), tail, |HitHeader(b)|);
    } else {
      var tail := Join(", ", SortedTopics(d));
      assert GetLocalTip(src, a) == MissPrefix(a) + tail;
      assert GetLocalTip(src, b) == MissPrefix(b) + tail;
      DropConcat(MissPrefix(a), tail, |MissPrefix(a)|);
      DropConcat(MissPrefix(b), tail, |MissPrefix(b)|);
    }
  }

  /** On a miss the message lists every key of the table once, in strictly
      ascending order, joined by ", ". */
  lemma UnknownTopicListsSortedKeys(src: TipSource, topic: string)
    requires src.Table? && Dicts.Valid(src.tips)
    requires TopicKey(topic) !in src.tips.entries
    ensures GetLocalTip(src, topic) == MissPrefix(topic) + Join(", ", SortedTopics(src.tips))
    ensures forall k :: k in SortedTopics(src.tips) <==> k in src.tips.entries
    ensures Sorting.SortedBy(SortedTopics(src.tips), Sorting.StrLe)
    ensures Dicts.Distinct(SortedTopics(src.tips))
  {
    var d := src.tips;
    var r := SortedTopics(d);
    Sorting.StrLeTotalPreorder();
    Sorting.SortSorted(d.keys, Sorting.StrLe);
    Dicts.DistinctPermutation(d.keys, r);
    forall k ensures k in r <==> k in d.entries {
      assert k in r <==> k in multiset(r);
      assert k in d.keys <==> k in multiset(d.keys);
    }
  }

  /** On a hit the answer is the header line followed by one "- t" line per
      stored tip, in stored order; a topic stored with no tips gives the
      header and one empty line (for tips and topic without line breaks). */
  lemma TipLinesInOrder(src: TipSource, topic: string)
    requires src.Table? && TopicKey(topic) in src.tips.entries
    requires '\n' !in topic
    requires forall t :: t in src.tips.entries[TopicKey(topic)] ==> '\n' !in t
    ensures var tips := src.tips.entries[TopicKey(topic)];
      SplitOn(GetLocalTip(src, topic), '\n') ==
        [HitHeader(topic)] + (if tips == [] then [""] else Bullets(tips))
  {
    var tips := src.tips.entries[TopicKey(topic)];
    HeaderOneLine(topic);
    HitAnswer(src, topic);
    if tips == [] {
      SplitOnConcat(HitHeader(topic), '\n', "");
      SplitOnNoSep(HitHeader(topic), '\n');
    } else {
      BulletsOneLine(tips);
      HeaderThenLines(HitHeader(topic), Bullets(tips));
    }
  }

  lemma BulletsOneLine(tips: seq<string>)
    requires forall t :: t in tips ==> '\n' !in t
    ensures forall i :: 0 <= i < |tips| ==> '\n' !in Bullets(tips)[i]
  {
    var b := Bullets(tips);
    forall i | 0 <= i < |b| ensures '\n' !in b[i] {
      assert tips[i] in tips;
      assert b[i] == "- " + tips[i];
    }
  }

  lemma HeaderOneLine(topic: string)
    requires '\n' !in topic
    ensures '\n' !in HitHeader(topic)
  {
  }

  /** A header line followed by lines without breaks splits back into them. */
  lemma HeaderThenLines(h: string, b: seq<string>)
    requires '\n' !in h && |b| >= 1
    requires forall i :: 0 <= i < |b| ==> '\n' !in b[i]
    ensures SplitOn(h + ['\n'] + Join("\n", b), '\n') == [h] + b
  {
    var body := Join("\n", b);
    assert SplitOn(body, '\n') == b by { SplitOnJoin(b, '\n'); }
    assert SplitOn(h, '\n') == [h] by { SplitOnNoSep(h, '\n'); }
    SplitOnConcat(h, '\n', body);
  }

  lemma HitAnswer(src: TipSource, topic: string)
    requires src.Table? && TopicKey(topic) in src.tips.entries
    ensures GetLocalTip(src, topic) ==
      HitHeader(topic) + ['\n'] + Join(['\n'], Bullets(src.tips.entries[TopicKey(topic)]))
  {
  }
}

=== FILE: wrap.dfy ===
/** `_wrap_text` of src/web_app.py: the greedy word wrapper the PDF export uses
    to cut each transcript line into chunks of at most `width` characters. */
module Wrap {
  import opened Text

  /** All words of all lines, in order. */
  function FlatWords(lines: seq<string>): seq<string>
    decreases |lines|
  {
    if lines == [] then []
    else FlatWords(lines[..|lines| - 1]) + Split(lines[|lines| - 1])
  }

  lemma FlatWordsSnoc(lines: seq<string>, x: string)
    ensures FlatWords(lines + [x]) == FlatWords(lines) + Split(x)
  {
    SnocPrefix(lines, x);
  }

  /** A line the wrapper builds: words separated by single spaces. */
  predicate SingleSpaced(line: string) {
    Join(" ", Split(line)) == line
  }

  /** Non-empty and without whitespace at either end. */
  predicate Trimmed(s: string) {
    s != [] && !IsSpace(s[0]) && !IsSpace(s[|s| - 1])
  }

  /** Greedy wrapping. The words of the lines are exactly `text.split()`, in
      order; each line is its words joined by single spaces; a line of two or
      more words fits in `width`; a line is closed only when the next word
      would not fit after it. The one line that can be empty is the first, and
      it is empty exactly when the first word plus one space exceeds `width`.
      Whitespace-only text gives no lines. */
  method WrapText(text: string, width: int) returns (lines: seq<string>)
    ensures FlatWords(lines) == Split(text)
    ensures LinesOk(lines, width)
    ensures forall i :: 0 <= i < |lines| - 1 ==> |lines[i]| + |Word(lines[i + 1])| + 1 > width
    ensures (|lines| > 0 && lines[0] == []) <==> (Split(text) != [] && |Split(text)[0]| + 1 > width)
    ensures lines == [] <==> AllSpace(text)
    ensures lines == Wrapped(text, width)
  {
    var words := Split(text);
    lines := [];
    var current := "";
    var i := 0;
    while i < |words|
      invariant i <= |words|
      invariant (lines, current) == Fill(words[..i], width)
    {
      var w := words[i];
      FillSnoc(words, i);
      if |current| + |w| + 1 <= width {
        current := Strip(current + " " + w);
      } else {
        lines := lines + [current];
        current := w;
      }
      i := i + 1;
    }
    assert words[..i] == words;
    if current != "" {
      lines := lines + [current];
    }
    assert lines == Wrapped(text, width);
    WrappedOk(text, width);
  }

  /** What the greedy pass sends out has every property the wrapper promises. */
  lemma WrappedOk(text: string, width: int)
    ensures var lines := Wrapped(text, width);
      && FlatWords(lines) == Split(text)
      && LinesOk(lines, width)
      && (forall i :: 0 <= i < |lines| - 1 ==> |lines[i]| + |Word(lines[i + 1])| + 1 > width)
      && ((|lines| > 0 && lines[0] == []) <==> (Split(text) != [] && |Split(text)[0]| + 1 > width))
      && (lines == [] <==> AllSpace(text))
  {
    FillDone(Split(text), width);
    SplitEmptyIffAllSpace(text);
  }

  /** The lines the greedy pass over `text.split()` sends out, as a function. */
  function Wrapped(text: string, width: int): seq<string> {
    var st := Fill(Split(text), width);
    if st.1 != [] then st.0 + [st.1] else st.0
  }

  /** The closed lines and the line being built after the greedy pass over
      `words`, one word at a time. */
  function Fill(words: seq<string>, width: int): (seq<string>, string)
    decreases |words|
  {
    if words == [] then ([], "")
    else Step(Fill(words[..|words| - 1], width), words[|words| - 1], width)
  }

  /** One iteration of the loop: `w` joins the line if it fits after it,
      otherwise the line is closed and `w` starts the next. */
  function Step(st: (seq<string>, string), w: string, width: int): (seq<string>, string) {
    if |st.1| + |w| + 1 <= width then (st.0, Strip(st.1 + " " + w))
    else (st.0 + [st.1], w)
  }

  lemma FillSnoc(words: seq<string>, i: nat)
    requires i < |words|
    ensures forall width :: Fill(words[..i + 1], width) == Step(Fill(words[..i], width), words[i], width)
  {
    SnocPrefix(words[..i], words[i]);
    assert words[..i + 1] == words[..i] + [words[i]];
  }

  /** The state the pass reaches after any prefix of the words is well formed. */
  lemma {:induction false} FillInv(ws: seq<string>, width: int)
    requires forall k :: 0 <= k < |ws| ==> IsWord(ws[k])
    ensures Inv(ws, Fill(ws, width), width)
    decreases |ws|
  {
    if ws != [] {
      FillInv(ws[..|ws| - 1], width);
      StepInv(ws, Fill(ws[..|ws| - 1], width), width);
    }
  }

  lemma StepInv(ws: seq<string>, st: (seq<string>, string), width: int)
    requires ws != [] && IsWord(ws[|ws| - 1])
    ensures Inv(ws[..|ws| - 1], st, width) ==> Inv(ws, Step(st, ws[|ws| - 1], width), width)
  {
    var p, w := ws[..|ws| - 1], ws[|ws| - 1];
    SnocLast(ws);
    if !Inv(p, st, width) {
    } else if |st.1| + |w| + 1 <= width {
      FitKeeps(p, w, st.0, st.1, width);
    } else {
      CloseKeeps(p, w, st.0, st.1, width);
    }
  }

  /** What the pass leaves, with the unfinished line sent out if it holds
      anything, has every property the wrapper promises. */
  lemma FillDone(words: seq<string>, width: int)
    requires forall k :: 0 <= k < |words| ==> IsWord(words[k])
    ensures var st := Fill(words, width);
      var out := if st.1 != [] then st.0 + [st.1] else st.0;
      && FlatWords(out) == words
      && LinesOk(out, width)
      && (forall i :: 0 <= i < |out| - 1 ==> |out[i]| + |Word(out[i + 1])| + 1 > width)
      && ((|out| > 0 && out[0] == []) <==> (words != [] && |words[0]| + 1 > width))
      && (out == [] <==> words == [])
  {
    FillInv(words, width);
    Finish(words, Fill(words, width), width);
  }

  /** The invariant of the pass once it has consumed the words `p`: they are
      the words of the closed lines followed by those of the current line, and
      each part is well formed. */
  ghost predicate Inv(p: seq<string>, st: (seq<string>, string), width: int) {
    && FlatWords(st.0) + Split(st.1) == p
    && CurrentOk(p, st.1, width)
    && LinesOk(st.0, width)
    && Greedy(st.0, st.1, width)
    && FirstLine(p, st.0, width)
  }

  /** The line being built: empty only before the first word, then trimmed,
      single-spaced, and within `width` once it holds two words. */
  predicate CurrentOk(p: seq<string>, current: string, width: int) {
    && (current == [] <==> p == [])
    && (current != [] ==> Trimmed(current) && SingleSpaced(current))
    && (|Split(current)| >= 2 ==> |current| <= width)
  }

  /** Every line is single-spaced, fits when it holds two or more words, and
      only the first may be empty. */
  predicate LinesOk(lines: seq<string>, width: int) {
    && (forall k :: 0 <= k < |lines| ==> SingleSpaced(lines[k]))
    && (forall k :: 0 <= k < |lines| && |Split(lines[k])| >= 2 ==> |lines[k]| <= width)
    && (forall k :: 1 <= k < |lines| ==> lines[k] != [])
  }

  /** No closed line could have taken the first word of the line after it. */
  predicate Greedy(lines: seq<string>, current: string, width: int) {
    && (forall k :: 0 <= k < |lines| - 1 ==> |lines[k]| + |Word(lines[k + 1])| + 1 > width)
    && (lines != [] ==> current != [] && |lines[|lines| - 1]| + |Word(current)| + 1 > width)
  }

  /** The first closed line is empty exactly when the first word was too wide
      to follow the empty line. */
  predicate FirstLine(p: seq<string>, lines: seq<string>, width: int) {
    (|lines| > 0 && lines[0] == []) <==> (p != [] && |p[0]| + 1 > width)
  }

  lemma FitKeeps(p: seq<string>, w: string, lines: seq<string>, current: string, width: int)
    requires IsWord(w) && Inv(p, (lines, current), width)
    requires |current| + |w| + 1 <= width
    ensures Inv(p + [w], (lines, Strip(current + " " + w)), width)
  {
    SnocPrefix(p, w);
    if current == [] {
      FitFirst(w);
      assert FlatWords(lines) == p;
    } else {
      FitNext(current, w);
      Assoc(FlatWords(lines), Split(current), [w]);
    }
  }

  lemma CloseKeeps(p: seq<string>, w: string, lines: seq<string>, current: string, width: int)
    requires IsWord(w) && Inv(p, (lines, current), width)
    requires |current| + |w| + 1 > width
    ensures Inv(p + [w], (lines + [current], w), width)
  {
    SnocPrefix(p, w);
    assert Word(w) == w by { WordOfWord(w); }
    assert Split(w) == [w] by { SplitWord(w); }
    assert Join(" ", [w]) == w;
    FlatWordsSnoc(lines, current);
    Assoc(FlatWords(lines), Split(current), [w]);
    assert SingleSpaced(current) by {
      if current == [] {
        assert Join(" ", []) == [];
      }
    }
    LinesOkSnoc(lines, current, width);
    GreedySnoc(lines, current, w, width);
    SnocPrefix(lines, current);
  }

  lemma LinesOkSnoc(lines: seq<string>, x: string, width: int)
    requires LinesOk(lines, width) && SingleSpaced(x)
    requires |Split(x)| >= 2 ==> |x| <= width
    requires lines != [] ==> x != []
    ensures LinesOk(lines + [x], width)
  {
    SnocPrefix(lines, x);
    var out := lines + [x];
    forall k | 0 <= k < |lines| ensures out[k] == lines[k] {
    }
  }

  lemma GreedySnoc(lines: seq<string>, x: string, next: string, width: int)
    requires Greedy(lines, x, width)
    requires next != [] && |x| + |Word(next)| + 1 > width
    ensures Greedy(lines + [x], next, width)
  {
    SnocPrefix(lines, x);
    var out := lines + [x];
    forall k | 0 <= k < |lines| ensures out[k] == lines[k] {
    }
  }

  /** After the loop: the unfinished line goes out if it holds anything. */
  lemma Finish(words: seq<string>, st: (seq<string>, string), width: int)
    ensures var out := if st.1 != [] then st.0 + [st.1] else st.0;
      Inv(words, st, width) ==>
      && FlatWords(out) == words
      && LinesOk(out, width)
      && (forall i :: 0 <= i < |out| - 1 ==> |out[i]| + |Word(out[i + 1])| + 1 > width)
      && ((|out| > 0 && out[0] == []) <==> (words != [] && |words[0]| + 1 > width))
      && (out == [] <==> words == [])
  {
    var (lines, current) := st;
    if !Inv(words, st, width) {
    } else if current != [] {
      var out := lines + [current];
      FlatWordsSnoc(lines, current);
      SnocPrefix(lines, current);
      LinesOkSnoc(lines, current, width);
      forall k | 0 <= k < |out| - 1 ensures |out[k]| + |Word(out[k + 1])| + 1 > width {
        assert out[k] == lines[k];
        if k + 1 < |lines| { assert out[k + 1] == lines[k + 1]; }
      }
    } else {
      assert Split(current) == [];
    }
  }

  /** The first word of a line: stripping " " + w leaves w. */
  lemma FitFirst(w: string)
    requires IsWord(w)
    ensures Strip("" + " " + w) == w
    ensures Split(w) == [w] && Trimmed(w) && SingleSpaced(w)
  {
    assert Split(w) == [w] by { SplitWord(w); }
    assert Trimmed(w) && Strip(w) == w by { StripClean(w); }
    assert Strip("" + " " + w) == Strip(w) by {
      assert "" + " " + w == " " + w + "";
      StripPadded(" ", w, "");
    }
    assert Join(" ", [w]) == w;
  }

  /** A later word that fits: the stripped result is the old line, a space and
      the word, with one more word and the same first word. */
  lemma FitNext(current: string, w: string)
    requires IsWord(w)
    requires Trimmed(current) && SingleSpaced(current)
    ensures Strip(current + " " + w) == current + " " + w
    ensures Split(current + " " + w) == Split(current) + [w]
    ensures Trimmed(current + " " + w) && SingleSpaced(current + " " + w)
    ensures Word(current + " " + w) == Word(current)
  {
    var s := current + " " + w;
    assert Trimmed(s) && Strip(s) == s by { SnocTrimmed(current, w); }
    assert Split(s) == Split(current) + [w] by { SplitSnocWord(current, w); }
    assert SingleSpaced(s) by { SnocSingleSpaced(current, w); }
    assert Word(s) == Word(current) by {
      WordOfConcat(current, " " + w);
      Assoc(current, " ", w);
    }
  }

  lemma SnocTrimmed(current: string, w: string)
    requires IsWord(w) && Trimmed(current)
    ensures Trimmed(current + " " + w) && Strip(current + " " + w) == current + " " + w
  {
    var s := current + " " + w;
    assert s[0] == current[0] && s[|s| - 1] == w[|w| - 1];
    StripClean(s);
  }

  lemma SnocSingleSpaced(current: string, w: string)
    requires IsWord(w)
    requires Trimmed(current) && SingleSpaced(current)
    ensures SingleSpaced(current + " " + w)
  {
    SplitSnocWord(current, w);
    var ws := Split(current);
    assert ws != [] by {
      assert Split(current) == [Word(current)] + Split(current[|Word(current)|..]);
    }
    assert (ws + [w])[..|ws|] == ws;
    assert Join(" ", ws + [w]) == Join(" ", ws) + " " + w;
  }
}
